=== FILE: README.md ===
# sstashed service layer in Dafny

This project models the service layer of sstashed, a Spring Boot back end for
a shop of handmade goods: carts and checkout, orders and their cancellation,
wishlists, user profiles and address books, product queries, registration,
and the global mapping from exceptions to HTTP error bodies.

The database is one immutable value, `Domain.Store`:
- users, products, categories and orders are maps keyed by id;
- carts, cart lines, addresses and wishlist rows are sequences, searched first-match the way the repositories' derived queries are;
- fresh ids come from the counter `nextId`.

Every service method is a pure function from the store (and its arguments) to
`Result<(Store, value)>`. An error carries no store. This is how the model
expresses `@Transactional` rollback: a failed call changes nothing.

The modules follow the Java classes:

| module | file | models |
|---|---|---|
| `Domain` | domain.dfy | entities, repository queries, store invariants |
| `OrderService` | order_service.dfy | `createOrderFromCart`, `cancelOrder`, `updateOrderStatus`, `updatePaymentStatus` |
| `CartService` | cart_service.dfy | get-or-create, add/merge, update, remove, clear, total, count |
| `WishlistService` | wishlist_service.dfy | add, remove, is-in, count, clear |
| `UserService` | user_service.dfy | profile update, address book, default address |
| `ProductService` | product_service.dfy | `convertToDto`, stock queries, ACTIVE-only listings |
| `AuthService` | auth_service.dfy | `register` |
| `ExceptionHandler` | exception_handler.dfy | `GlobalExceptionHandler` |
| `Shop` | shop.dfy | all calls as steps on one store, and the invariant they keep |

The central result is `OrderService.CheckoutKeepsStockNonNegative`. Checkout
checks stock line by line and then decrements it line by line. That keeps
stock non-negative only because a cart holds at most one line per product.
`CartService.AddItemToCart` maintains this by merging into the existing line.
`OrderService.DuplicateLinesOversell` shows a concrete cart with two lines for
one product that passes the check and then drives stock to -1.

`Shop.RunKeepsInvariant` lifts the per-operation results to any sequence of
calls. Starting from a store that satisfies the invariant, every sequence keeps
all of these true:
- every stock is non-negative;
- each (cart, product) pair has at most one line;
- no two cart lines share a primary key;
- no two carts share a primary key;
- each user has at most one cart;
- each user has at most one default address;
- wishlist rows are unique;
- emails are unique;
- every user, order, cart and cart-line id is below `nextId`.

Registration rejects a taken email with an `IllegalArgumentException`. The
global handler has no branch of its own for that class, so its generic
`RuntimeException` branch would map it to 500 (`ExceptionHandler.ServiceErrorStatus`).
In the running program the exception never gets that far: `AuthController`
catches it and answers 400 with the message. Controllers are not part of this
model.

## Model


| member | source | states |
|---|---|---|
| Domain.FindCart | src/main/java/com/sbsr/sstashed/service/CartService.java:30-31 | `findByUserId`: a returned cart belongs to the user; nothing is returned exactly when the user owns no cart |
| Domain.FindLine | src/main/java/com/sbsr/sstashed/service/CartService.java:62 | `findByCartIdAndProductId`: a returned index holds a line of that cart and product; none exactly when no such line exists |
| Domain.LinesOf | src/main/java/com/sbsr/sstashed/service/CartService.java:124-128 | `findByCartId`: the result holds exactly the table's lines of that cart |
| Domain.WithoutCart | src/main/java/com/sbsr/sstashed/service/CartService.java:121 | `deleteByCartId`: exactly the lines of other carts remain |
| Domain.WithoutCartEmptiesCart | src/main/java/com/sbsr/sstashed/service/OrderService.java:111-112 | after `deleteByCartId` the cart has no lines |
| Domain.LinesOfDistinctProducts | src/main/java/com/sbsr/sstashed/service/CartService.java:62-84 | with one line per (cart, product) in the table, the lines of any one cart name pairwise distinct products |
| OrderService.FirstShortage | src/main/java/com/sbsr/sstashed/service/OrderService.java:54-60 | the validation loop passes exactly when every line's product has at least the line's quantity; otherwise it reports the first failing line's shortage |
| OrderService.Sell | src/main/java/com/sbsr/sstashed/service/OrderService.java:100-106 | one decrement: stock drops by the quantity, status becomes OUT_OF_STOCK exactly when stock reaches 0, all other fields kept |
| OrderService.DecrementStock | src/main/java/com/sbsr/sstashed/service/OrderService.java:86-109 | the decrement loop keeps the product ids and lowers each product's stock by the total quantity its lines ask for, duplicate lines included |
| OrderService.OrderLines | src/main/java/com/sbsr/sstashed/service/OrderService.java:86-98 | one order line per cart line, with the cart line's product, quantity and price snapshot and subtotal price × quantity |
| OrderService.OrderLinesTotal | src/main/java/com/sbsr/sstashed/service/OrderService.java:62-65 | the order lines' subtotals add up to the cart total |
| OrderService.CreateOrderFromCart | src/main/java/com/sbsr/sstashed/service/OrderService.java:35-115 | errors in source order: unknown user, no cart, "Cart is empty", unknown address, then the error of the first cart line not covered by stock (insufficient stock with the product's name, its stock and the line's quantity); succeeds exactly when those pass and every line is covered by stock; the new order gets the fresh id; users and carts are untouched |
| OrderService.CheckoutNewOrder | src/main/java/com/sbsr/sstashed/service/OrderService.java:62-98 | the new order is PENDING with payment PENDING, has the chosen method and the address's five fields and no delivery date, mirrors the cart lines, and has a total equal to both the cart total and its subtotal sum; older orders are kept |
| OrderService.CheckoutUpdatesStock | src/main/java/com/sbsr/sstashed/service/OrderService.java:86-112 | each carted product loses exactly its line's quantity and turns OUT_OF_STOCK exactly at 0; other products are unchanged; the cart ends empty |
| OrderService.CheckoutKeepsStockNonNegative | src/main/java/com/sbsr/sstashed/service/OrderService.java:54-109 | with one line per (cart, product), checkout leaves no stock negative |
| OrderService.DuplicateLinesOversell | src/main/java/com/sbsr/sstashed/service/OrderService.java:54-109 | without that invariant, two lines of 3 against a stock of 5 both pass the check and the stock ends at -1 |
| OrderService.CheckoutFrame | src/main/java/com/sbsr/sstashed/service/OrderService.java:83-112 | checkout writes only products, orders, cart lines and the id counter; it adds one order under the old counter; it only deletes cart lines, which stay unique by product and by id; stock stays non-negative; order quantities come from cart lines |
| OrderService.Restock | src/main/java/com/sbsr/sstashed/service/OrderService.java:172-177 | one restore: stock rises by the quantity, OUT_OF_STOCK becomes ACTIVE, other statuses and fields are kept |
| OrderService.RestoreStock | src/main/java/com/sbsr/sstashed/service/OrderService.java:169-180 | the restore loop keeps the product ids, raises each product's stock by the total quantity the order holds of it, and changes no field but stock and status |
| OrderService.RestoreStockStatus | src/main/java/com/sbsr/sstashed/service/OrderService.java:169-180 | after the restore loop every product the order names is ACTIVE, ACTIVE products stay ACTIVE, and products the order does not name are exactly as they were |
| OrderService.CancelOrder | src/main/java/com/sbsr/sstashed/service/OrderService.java:161-184 | an unknown order is 404; a DELIVERED order gives "Cannot cancel delivered order"; otherwise the order becomes CANCELLED, every product's stock rises by the order's quantity of it, every product the order names is ACTIVE afterwards, products it does not name are unchanged, and only products and orders change |
| OrderService.CheckoutThenCancelRestoresStock | src/main/java/com/sbsr/sstashed/service/OrderService.java:86-180 | cancelling the order a checkout just created succeeds and puts every product's stock back to its value before checkout |
| OrderService.CancelTwiceRestoresTwice | src/main/java/com/sbsr/sstashed/service/OrderService.java:161-184 | a cancelled order can be cancelled again, and its stock is then restored a second time |
| OrderService.CancelKeepsStockNonNegative | src/main/java/com/sbsr/sstashed/service/OrderService.java:169-180 | with non-negative order quantities, cancellation keeps every stock non-negative |
| OrderService.UpdateOrderStatus | src/main/java/com/sbsr/sstashed/service/OrderService.java:138-149 | any status may be set; DELIVERED stamps the delivery date; nothing else in the order or store changes; an unknown order is 404 |
| OrderService.DeliveredOrderCanBeReopened | src/main/java/com/sbsr/sstashed/service/OrderService.java:138-167 | a delivered order refuses cancellation, but after any other status is set, cancelling it succeeds |
| OrderService.StatusUpdateLeavesStock | src/main/java/com/sbsr/sstashed/service/OrderService.java:138-149 | setting a status, CANCELLED included, restores no stock |
| OrderService.UpdatePaymentStatus | src/main/java/com/sbsr/sstashed/service/OrderService.java:152-158 | only the payment status of the order changes; an unknown order is 404 |
| CartService.GetOrCreateCart | src/main/java/com/sbsr/sstashed/service/CartService.java:30-42 | returns the existing cart unchanged; otherwise 404 for an unknown user, or a new cart with a fresh id that `findByUserId` then finds |
| CartService.GetOrCreateCartIdempotent | src/main/java/com/sbsr/sstashed/service/CartService.java:30-42 | a second call returns the same cart and store |
| CartService.GetOrCreateCartKeepsOneCartPerUser | src/main/java/com/sbsr/sstashed/service/CartService.java:30-42 | a cart is created only for a user without one, so each user keeps at most one cart |
| CartService.GetOrCreateCartKeepsCartIds | src/main/java/com/sbsr/sstashed/service/CartService.java:30-42 | with cart keys below the counter, a new cart takes a key no other cart has |
| CartService.AddItemToCart | src/main/java/com/sbsr/sstashed/service/CartService.java:48-85 | errors in source order: cart, product 404, "Product is not available", then `InsufficientStock(name, stock, quantity)` when the added quantity exceeds stock, then `InsufficientStock(name, stock, old + quantity)` when the merged quantity does; succeeds exactly when the product is ACTIVE and both checks pass; a success leaves the product's line in the user's cart with quantity within stock, and touches no product, order or user |
| CartService.AddItemLine | src/main/java/com/sbsr/sstashed/service/CartService.java:62-84 | an existing line is replaced by one with the summed quantity; otherwise one line with the product's current price is appended |
| CartService.AddItemMergeOverStock | src/main/java/com/sbsr/sstashed/service/CartService.java:64-71 | a merge whose summed quantity exceeds stock fails with that summed quantity as the requested amount |
| CartService.AddItemKeepsUniqueLines | src/main/java/com/sbsr/sstashed/service/CartService.java:62-84 | adding keeps at most one line per (cart, product) |
| CartService.AddItemFrame | src/main/java/com/sbsr/sstashed/service/CartService.java:48-85 | adding writes only carts, lines and the id counter, keeps one cart per user and keeps cart ids below the counter |
| CartService.AddItemLinesBounded | src/main/java/com/sbsr/sstashed/service/CartService.java:58-84 | for a non-negative quantity, every line's id and cart stay below the id counter, every quantity stays non-negative, and line ids stay unique |
| CartService.AddItemRaisesSums | src/main/java/com/sbsr/sstashed/service/CartService.java:62-84 | adding q units raises the item count by q and the cart total by q × the line's price |
| CartService.UpdateCartItemQuantity | src/main/java/com/sbsr/sstashed/service/CartService.java:87-104 | unknown line 404; another user's line "You don't have permission to modify this cart item"; quantity over stock is rejected as insufficient stock with the product's name, its stock and the requested quantity; the update succeeds exactly when the line exists, belongs to the caller's cart, its product exists and the quantity is within stock, and then only that line changes, to the new quantity and the product's current price |
| CartService.UpdateQuantityEffects | src/main/java/com/sbsr/sstashed/service/CartService.java:87-104 | updating keeps one line per (cart, product) and moves the item count by the new minus the old quantity |
| CartService.RemoveItemFromCart | src/main/java/com/sbsr/sstashed/service/CartService.java:106-115 | succeeds exactly for an existing line of the caller's cart; afterwards exactly the other lines remain |
| CartService.ClearCart | src/main/java/com/sbsr/sstashed/service/CartService.java:117-122 | 404 without a cart; otherwise exactly the user's lines are deleted and other carts' lines stay as they were |
| CartService.ClearCartKeepsOtherUsersLines | src/main/java/com/sbsr/sstashed/service/CartService.java:117-122 | with unique cart keys, every other user's cart keeps all its lines |
| CartService.RemoveAndClearKeepUniqueLines | src/main/java/com/sbsr/sstashed/service/CartService.java:106-122 | removing and clearing keep one line per (cart, product) and unique line ids |
| CartService.RemoveItemDeletesOneRow | src/main/java/com/sbsr/sstashed/service/CartService.java:106-115 | with unique line ids, a removal deletes exactly one row, and that row belongs to the caller's cart |
| CartService.CalculateCartTotal | src/main/java/com/sbsr/sstashed/service/CartService.java:131-137 | 404 without a cart; otherwise Σ price × quantity over the cart's lines, 0 for an empty cart |
| CartService.GetCartItemCount | src/main/java/com/sbsr/sstashed/service/CartService.java:139-147 | 0 without a cart or lines; otherwise Σ quantity over the cart's lines |
| WishlistService.WishesOf | src/main/java/com/sbsr/sstashed/service/WishlistService.java:26-29 | exactly the user's rows |
| WishlistService.GetWishlistCount | src/main/java/com/sbsr/sstashed/service/WishlistService.java:65-68 | at most the table size; 0 exactly when the user has no row; with no duplicate rows, the number of distinct products the user has wished for |
| WishlistService.RowsPerProduct | src/main/java/com/sbsr/sstashed/service/WishlistService.java:65-68 | with no duplicate rows, the user's rows and the user's wished products are equally many |
| WishlistService.IsInWishlist | src/main/java/com/sbsr/sstashed/service/WishlistService.java:60-63 | true exactly when one of the user's rows names the product; then the user's count is positive |
| WishlistService.AddToWishlist | src/main/java/com/sbsr/sstashed/service/WishlistService.java:31-50 | the duplicate check ("Product already in wishlist") precedes the user and product lookups; success adds exactly that pair and changes nothing else |
| WishlistService.AddToWishlistEffects | src/main/java/com/sbsr/sstashed/service/WishlistService.java:31-68 | a successful add keeps rows unique, raises the user's count by one and leaves other users' counts alone |
| WishlistService.RemoveFromWishlist | src/main/java/com/sbsr/sstashed/service/WishlistService.java:52-58 | fails exactly when the pair is absent; otherwise the pair is gone and every other row stays |
| WishlistService.RemoveFromWishlistEffects | src/main/java/com/sbsr/sstashed/service/WishlistService.java:52-68 | a successful remove keeps rows unique and lowers the user's count by one |
| WishlistService.WithoutWishCount | src/main/java/com/sbsr/sstashed/service/WishlistService.java:57 | deleting a pair present once removes exactly one of its user's rows |
| WishlistService.ClearWishlist | src/main/java/com/sbsr/sstashed/service/WishlistService.java:70-73 | the user's count becomes 0 and other users' rows are kept |
| WishlistService.ClearWishlistKeepsOthers | src/main/java/com/sbsr/sstashed/service/WishlistService.java:70-73 | another user's rows are the same list, in the same order, after the clear |
| UserService.UpdateUserProfile | src/main/java/com/sbsr/sstashed/service/UserService.java:34-43 | 404 for an unknown user; copies first name, last name and phone; email, password, role and active flag are kept |
| UserService.UpdateProfileKeepsUniqueEmails | src/main/java/com/sbsr/sstashed/service/UserService.java:34-43 | a profile update cannot create a duplicate email |
| UserService.GetUserAddresses | src/main/java/com/sbsr/sstashed/service/UserService.java:46-48 | exactly the user's addresses |
| UserService.GetDefaultAddress | src/main/java/com/sbsr/sstashed/service/UserService.java:100-102 | a returned address is a default of the user; none exactly when the user has no default |
| UserService.ClearDefault | src/main/java/com/sbsr/sstashed/service/UserService.java:57-63 | only a default address of that user can lose its flag; nothing else changes |
| UserService.ClearDefaultRemovesDefault | src/main/java/com/sbsr/sstashed/service/UserService.java:57-63 | under the invariant, clearing leaves the user no default |
| UserService.AddAddress | src/main/java/com/sbsr/sstashed/service/UserService.java:51-67 | 404 for an unknown user; the address is appended with a fresh id and that user as owner; each existing row is unchanged, except that a default request may clear the flag of that user's current default |
| UserService.AddAddressKeepsOneDefault | src/main/java/com/sbsr/sstashed/service/UserService.java:51-67 | adding keeps at most one default address per user |
| UserService.AddAddressDefault | src/main/java/com/sbsr/sstashed/service/UserService.java:51-67 | a default address added becomes the user's default; a non-default one changes no user's default |
| UserService.UpdateAddress | src/main/java/com/sbsr/sstashed/service/UserService.java:70-92 | 404 for an unknown id; the row at the found index is replaced, keeping its id and owner; the six descriptive fields are copied; the flag ends as request flag or old flag, so a demotion is ignored; every other row is unchanged, except that a default request may clear the owner's current default |
| UserService.UpdateAddressIgnoresDemotion | src/main/java/com/sbsr/sstashed/service/UserService.java:82-89 | a request without the flag keeps the address's flag and leaves every user's default lookup as it was |
| UserService.UpdateAddressKeepsOneDefault | src/main/java/com/sbsr/sstashed/service/UserService.java:70-92 | updating keeps at most one default address per user |
| UserService.UpdateAddressPromotes | src/main/java/com/sbsr/sstashed/service/UserService.java:82-89 | a request with the default flag makes the address its owner's default |
| UserService.OnlyDefault | src/main/java/com/sbsr/sstashed/service/UserService.java:100-102 | under the invariant, a default address is the one the default lookup finds |
| UserService.DeleteAddress | src/main/java/com/sbsr/sstashed/service/UserService.java:95-97 | exactly the rows with other ids remain; an unknown id deletes nothing |
| UserService.DeleteAddressKeepsOneDefault | src/main/java/com/sbsr/sstashed/service/UserService.java:95-97 | deleting keeps at most one default address per user |
| UserService.DeleteDefaultAddress | src/main/java/com/sbsr/sstashed/service/UserService.java:95-102 | deleting the default address leaves its owner without one |
| ProductService.StatusNameRoundTrip | src/main/java/com/sbsr/sstashed/service/ProductService.java:37 | the status name parses back to the status, and only that name does |
| ProductService.ConvertToDto | src/main/java/com/sbsr/sstashed/service/ProductService.java:29-45 | copies the scalar fields; the category and artisan ids are copied and their names are present exactly when they resolve; the artisan name is first name, one space, last name |
| ProductService.ArtisanName | src/main/java/com/sbsr/sstashed/service/ProductService.java:41-42 | the name is the first name, a space, then the last name |
| ProductService.IsProductInStock | src/main/java/com/sbsr/sstashed/service/ProductService.java:85-91 | 404 for an unknown product; true exactly when it is ACTIVE with at least that much stock |
| ProductService.GetProductStock | src/main/java/com/sbsr/sstashed/service/ProductService.java:94-99 | 404 for an unknown product; otherwise its stock |
| ProductService.GetProductById | src/main/java/com/sbsr/sstashed/service/ProductService.java:54-56 | present exactly for a known id, carrying that id and stock |
| ProductService.GetAllActiveProducts | src/main/java/com/sbsr/sstashed/service/ProductService.java:48-51 | exactly the ACTIVE products, each shown as ACTIVE under its own id |
| ProductService.SearchProducts | src/main/java/com/sbsr/sstashed/service/ProductService.java:59-62 | exactly the ACTIVE products the keyword test accepts |
| ProductService.GetProductsByCategory | src/main/java/com/sbsr/sstashed/service/ProductService.java:65-67 | exactly the ACTIVE products of that category, unconverted |
| ProductService.SearchWithinListing | src/main/java/com/sbsr/sstashed/service/ProductService.java:48-62 | every search hit appears in the full listing with the same record |
| ProductService.InStockIffAddAccepted | src/main/java/com/sbsr/sstashed/service/ProductService.java:85-91 | for a product not yet in the cart, the stock query answers exactly whether adding that quantity succeeds |
| ProductService.SoldOutLeavesListing | src/main/java/com/sbsr/sstashed/service/OrderService.java:104-106 | a product that checkout brings to 0 disappears from the ACTIVE listing |
| AuthService.PlainText | src/main/java/com/sbsr/sstashed/config/SecurityConfig.java:65-69 | the configured encoder stores the password unchanged |
| AuthService.Register | src/main/java/com/sbsr/sstashed/service/AuthService.java:60-82 | a taken email gives "Email address already in use."; otherwise a CUSTOMER, active user with the request's fields and encoded password, plus one cart for it, both under fresh ids |
| AuthService.RegisterEffects | src/main/java/com/sbsr/sstashed/service/AuthService.java:60-82 | the user is new and owns exactly one cart, the one `findByUserId` returns |
| AuthService.RegisterKeepsInvariants | src/main/java/com/sbsr/sstashed/service/AuthService.java:60-82 | registration keeps emails unique, cart keys unique, one cart per user and ids below the counter |
| ExceptionHandler.StripUri | src/main/java/com/sbsr/sstashed/exception/GlobalExceptionHandler.java:34 | `replace("uri=", "")` never lengthens the description |
| ExceptionHandler.StripUriUnchangedIff | src/main/java/com/sbsr/sstashed/exception/GlobalExceptionHandler.java:34 | the path equals the description exactly when it contains no "uri=" |
| ExceptionHandler.StripUriNotIdempotent | src/main/java/com/sbsr/sstashed/exception/GlobalExceptionHandler.java:34 | one pass turns "uriuri==" into "uri=", which still contains the pattern |
| ExceptionHandler.Handle | src/main/java/com/sbsr/sstashed/exception/GlobalExceptionHandler.java:22-188 | each exception class gets its status (404/400/401/500 classes, stated both ways), its error label ("Not Found", "Bad Request", "Unauthorized", "Insufficient Stock", "Validation Failed", "Authentication Failed", "User Not Found", "Internal Server Error") and its message; bad credentials get the fixed message; other checked exceptions get the prefixed message; a validation failure carries the field → message map |
| ExceptionHandler.ValidationResponseLastWins | src/main/java/com/sbsr/sstashed/exception/GlobalExceptionHandler.java:95-116 | a validation response lists exactly the fields with an error, each with its last error's message |
| ExceptionHandler.FieldMessages | src/main/java/com/sbsr/sstashed/exception/GlobalExceptionHandler.java:101-106 | the map's keys are exactly the fields that have an error |
| ExceptionHandler.FieldMessagesLastWins | src/main/java/com/sbsr/sstashed/exception/GlobalExceptionHandler.java:101-106 | each field maps to the message of its last error |
| ExceptionHandler.LaterErrorOverwrites | src/main/java/com/sbsr/sstashed/exception/GlobalExceptionHandler.java:101-106 | two errors on one field: the second message is reported |
| ExceptionHandler.Raise | src/main/java/com/sbsr/sstashed/exception/GlobalExceptionHandler.java:22-170 | service errors are thrown as the handled not-found, bad-request, unauthorized and insufficient-stock exceptions, and as a plain runtime exception exactly for the taken email; never as a validation, credentials, user-not-found or checked exception |
| ExceptionHandler.ServiceErrorStatus | src/main/java/com/sbsr/sstashed/exception/GlobalExceptionHandler.java:154-170 | service errors map to 404, 400, 401, 400, and to 500 for the `IllegalArgumentException` of registration, which has no handler of its own |
| Shop.CheckoutKeepsInvariant | src/main/java/com/sbsr/sstashed/service/OrderService.java:35-115 | checkout preserves the store invariant |
| Shop.CancelKeepsInvariant | src/main/java/com/sbsr/sstashed/service/OrderService.java:161-184 | cancellation preserves the store invariant |
| Shop.OpenCartKeepsInvariant | src/main/java/com/sbsr/sstashed/service/CartService.java:30-42 | get-or-create preserves the store invariant |
| Shop.AddItemKeepsInvariant | src/main/java/com/sbsr/sstashed/service/CartService.java:48-85 | adding a non-negative quantity preserves the store invariant |
| Shop.UpdateItemKeepsInvariant | src/main/java/com/sbsr/sstashed/service/CartService.java:87-104 | setting a non-negative quantity preserves the store invariant |
| Shop.RemoveItemKeepsInvariant | src/main/java/com/sbsr/sstashed/service/CartService.java:106-115 | removing a line preserves the store invariant |
| Shop.EmptyCartKeepsInvariant | src/main/java/com/sbsr/sstashed/service/CartService.java:117-122 | clearing a cart preserves the store invariant |
| Shop.AddWishKeepsInvariant | src/main/java/com/sbsr/sstashed/service/WishlistService.java:31-50 | adding to a wishlist preserves the store invariant |
| Shop.RemoveWishKeepsInvariant | src/main/java/com/sbsr/sstashed/service/WishlistService.java:52-58 | removing from a wishlist preserves the store invariant |
| Shop.ClearWishesKeepsInvariant | src/main/java/com/sbsr/sstashed/service/WishlistService.java:70-73 | clearing a wishlist preserves the store invariant |
| Shop.UpdateProfileKeepsInvariant | src/main/java/com/sbsr/sstashed/service/UserService.java:34-43 | a profile update preserves the store invariant |
| Shop.NewAddressKeepsInvariant | src/main/java/com/sbsr/sstashed/service/UserService.java:51-67 | adding an address preserves the store invariant |
| Shop.EditAddressKeepsInvariant | src/main/java/com/sbsr/sstashed/service/UserService.java:70-92 | updating an address preserves the store invariant |
| Shop.DropAddressKeepsInvariant | src/main/java/com/sbsr/sstashed/service/UserService.java:95-97 | deleting an address preserves the store invariant |
| Shop.SignUpKeepsInvariant | src/main/java/com/sbsr/sstashed/service/AuthService.java:60-82 | registration preserves the store invariant |
| Shop.ApplyKeepsInvariant | src/main/java/com/sbsr/sstashed/service/CartService.java:48-85 | every successful well-formed call of every service preserves the store invariant; the cited lines are the merge that keeps one line per (cart, product), the invariant the checkout proof depends on, and each call's own lines are cited by the per-operation `Shop` rows above |
| Shop.RunKeepsInvariant | src/main/java/com/sbsr/sstashed/service/OrderService.java:54-109 | any run of well-formed calls of every service, failed ones rolled back, keeps every stock non-negative and every uniqueness property; the cited lines are the stock check and decrement whose non-negativity the run preserves, and each call's own lines are cited by the per-operation `Shop` rows above |

## Left out

- Controllers, `SecurityConfig` request filtering, JWT handling and `AuthService.login`: these are authentication plumbing around the services, and they depend on Spring Security.
- The order number (`OrderService.java:186-189`) and all timestamps: the order number comes from the clock and a random UUID. Timestamps enter as the `now` parameter where the model needs them (order date, delivery date).
- Transactions, concurrency and isolation: each call is atomic by construction. Two concurrent checkouts of one product are not modelled.
- Pagination and sorting of the listings and of `getUserOrders`: listings are maps keyed by id, without page boundaries.
- SearchProducts: the case-insensitive `LIKE` on name or description is the parameter `matches`, because there is no case folding on Dafny strings.
- The simple pass-through queries `getUserById`, `getUserByEmail`, `getOrderById`, `getOrderByOrderNumber`, `getUserOrders`, `getOrderItems`, `getUserOrderCount`, `getCartByUserId`, `getCartItems`, `getUserWishlist`, `getProductsByPriceRange`, `getAllActiveCategories` and `getCategoryById`: each is a single repository lookup with no logic of its own.
- Domain.FindCart, Domain.FindDefault: where the database could hold several matching rows, the model takes the first. Spring would throw on a non-unique result. The invariants proved here rule such states out.
- 32-bit `Integer` quantities and stock, and `BigDecimal` money: all are unbounded integers. Overflow of `stock - quantity`, of a merged quantity or of the count sum is not modelled.
- Exception message texts of `ResourceNotFoundException` and `InsufficientStockException`: their formatting classes are not part of this model. `ExceptionHandler.Raise` takes the message text as the parameter `describe`, and service errors carry structured values (`Domain.Error`).
- WishlistService.RemoveFromWishlist: the error is `ResourceNotFound(WishlistEntry(user, product))` rather than the concatenated message text.
- UserService.AddAddress, UserService.UpdateAddress: a null `isDefault` (a `NullPointerException` in Java) is not modelled. The flag is a plain boolean.
- Dangling foreign keys. The database's foreign-key constraints rule these states out, and the invariant does not track references. Where the model meets one anyway, it differs from Java, which would fail on the lazy load of the missing row:
  - A product whose category or artisan row is missing converts with `None` names.
  - A cart line whose product row is missing fails the quantity update with a product 404.
  - OrderService.CreateOrderFromCart: a cart line whose product row is missing fails the stock check with a product 404.
  - OrderService.CancelOrder: an order line whose product row is missing is skipped, and the cancellation succeeds.
- ExceptionHandler.Handle: a class-level validation error (an `ObjectError` that is not a `FieldError`) is not modelled. Java's cast to `FieldError` would throw out of the handler. `ValidationEx` carries field errors only.
- Domain.OrderStatus, Domain.PaymentStatus, Domain.PaymentMethod: the enum classes are not part of this model. Only the constants the services name are spelled out; `OtherOrderStatus(name)` and the like stand for the rest, and nothing keeps their names apart from the named constants.
- OrderService.CancelKeepsStockNonNegative: requires non-negative quantities on the order's lines. The services never check the sign of a quantity; the request records are validated before they reach the services, and those records are not part of this model.
- Shop.ApplyKeepsInvariant, Shop.RunKeepsInvariant: quantities in cart requests must be non-negative (`Shop.WellFormed`), for the reason given in the previous item.
- Addresses: freshness of address ids is not part of the invariant. Address ids come from the same counter, but no property here relies on them being unique.

=== FILE: auth_service.dfy ===
/**
 `AuthService.register`: a new CUSTOMER account with an empty cart. The
 password encoder is a parameter; the application's configured encoder is
 the identity (`PlainText`).
 */
module AuthService {
  import opened Domain

  /** `RegisterRequest`. */
  datatype RegisterRequest = RegisterRequest(
    firstName: string,
    lastName: string,
    email: string,
    phone: string,
    password: string)

  /** The configured `PasswordEncoder`: stores the password as given. */
  function PlainText(password: string): (r: string)
    ensures r == password
  {
    password
  }

  /**
   `AuthService.register`: rejects a taken email; otherwise saves the user
   and then a cart that belongs to it, both with fresh ids.
   */
  function Register(s: Store, req: RegisterRequest, encode: string -> string): (r: Result<(Store, Id)>)
    ensures r.Err? <==> EmailTaken(s.users, req.email)
    ensures r.Err? ==> r.error == IllegalArgument("Email address already in use.")
    ensures r.Ok? ==> (
      var (s', uid) := r.value;
      && uid == s.nextId
      && uid in s'.users
      && s'.users == s.users[uid := s'.users[uid]]
      && s'.users[uid].firstName == req.firstName && s'.users[uid].lastName == req.lastName
      && s'.users[uid].email == req.email && s'.users[uid].phone == req.phone
      && s'.users[uid].password == encode(req.password)
      && s'.users[uid].role == "CUSTOMER" && s'.users[uid].isActive
      && |s'.carts| == |s.carts| + 1 && s'.carts[|s.carts|].user == uid
      && s'.carts[..|s.carts|] == s.carts)
    ensures r.Ok? ==> r.value.0 == s.(users := r.value.0.users, carts := r.value.0.carts, nextId := r.value.0.nextId)
  {
    if EmailTaken(s.users, req.email) then Err(IllegalArgument("Email address already in use."))
    else
      var uid := s.nextId;
      var u := User(req.firstName, req.lastName, req.email, req.phone, encode(req.password), "CUSTOMER", true);
      var cart := Cart(s.nextId + 1, uid);
      Ok((s.(users := s.users[uid := u], carts := s.carts + [cart], nextId := s.nextId + 2), uid))
  }

  /** With ids below `nextId`, registration creates a brand-new user that owns exactly one cart. */
  lemma RegisterEffects(s: Store, req: RegisterRequest, encode: string -> string)
    requires FreshIds(s)
    requires Register(s, req, encode).Ok?
    ensures var (s', uid) := Register(s, req, encode).value;
      && uid !in s.users
      && (forall c :: c in s'.carts && c.user == uid ==> c == Cart(s.nextId + 1, uid))
      && FindCart(s'.carts, uid) == Some(Cart(s.nextId + 1, uid))
  {
    var uid := s.nextId;
    var cart := Cart(s.nextId + 1, uid);
    forall c | c in s.carts
      ensures c.user != uid
    {
    }
    FindCartAppend(s.carts, cart);
  }

  /** Registration keeps emails unique, cart keys unique, one cart per user, and every id below `nextId`. */
  lemma RegisterKeepsInvariants(s: Store, req: RegisterRequest, encode: string -> string)
    requires FreshIds(s)
    requires UniqueEmails(s.users) && UniqueCartIds(s.carts) && OneCartPerUser(s.carts)
    requires Register(s, req, encode).Ok?
    ensures var s' := Register(s, req, encode).value.0;
      && UniqueEmails(s'.users)
      && UniqueCartIds(s'.carts)
      && OneCartPerUser(s'.carts)
      && FreshIds(s')
  {
    var s' := Register(s, req, encode).value.0;
    var uid := s.nextId;
    assert s'.carts == s.carts + [Cart(s.nextId + 1, uid)];
    forall i, j | 0 <= i < j < |s'.carts|
      ensures s'.carts[i].user != s'.carts[j].user && s'.carts[i].id != s'.carts[j].id
    {
      assert s'.carts[i] in s.carts;
    }
  }
}

=== FILE: cart_service.dfy ===
/**
 The cart operations of `CartService`: get-or-create, the stock-checked
 add/merge and quantity update, ownership-checked removal, clearing, and the
 two read-only sums.

 `AddItemToCart` merges into an existing line instead of adding a second
 line for the same product; that is what keeps `Domain.UniqueCartLines`,
 on which checkout relies.
 */
module CartService {
  import opened Domain

  /** `CartService.getOrCreateCart`: the user's cart, created on first use. */
  function GetOrCreateCart(s: Store, userId: Id): (r: Result<(Store, Cart)>)
    ensures FindCart(s.carts, userId).Some? ==> r == Ok((s, FindCart(s.carts, userId).value))
    ensures FindCart(s.carts, userId).None? && userId !in s.users ==> r == Err(ResourceNotFound(UserRow(userId)))
    ensures FindCart(s.carts, userId).None? && userId in s.users ==>
      r == Ok((s.(carts := s.carts + [Cart(s.nextId, userId)], nextId := s.nextId + 1), Cart(s.nextId, userId)))
    ensures r.Ok? ==> r.value.1.user == userId && FindCart(r.value.0.carts, userId) == Some(r.value.1)
  {
    match FindCart(s.carts, userId)
    case Some(c) => Ok((s, c))
    case None =>
      if userId !in s.users then Err(ResourceNotFound(UserRow(userId)))
      else
        var c := Cart(s.nextId, userId);
        FindCartAppend(s.carts, c);
        Ok((s.(carts := s.carts + [c], nextId := s.nextId + 1), c))
  }

  /** `CartService.addItemToCart`: add `quantity` units of a product, merging into the existing line. */
  function AddItemToCart(s: Store, userId: Id, productId: Id, quantity: int): (r: Result<(Store, CartItem)>)
    ensures GetOrCreateCart(s, userId).Err? ==> r == Err(GetOrCreateCart(s, userId).error)
    ensures GetOrCreateCart(s, userId).Ok? && productId !in s.products ==> r == Err(ResourceNotFound(ProductRow(productId)))
    ensures GetOrCreateCart(s, userId).Ok? && productId in s.products && s.products[productId].status != Active ==>
      r == Err(BadRequest("Product is not available"))
    ensures (GetOrCreateCart(s, userId).Ok? && productId in s.products && s.products[productId].status == Active
      && s.products[productId].stock < quantity) ==>
      r == Err(InsufficientStock(s.products[productId].name, s.products[productId].stock, quantity))
    ensures (GetOrCreateCart(s, userId).Ok? && productId in s.products && s.products[productId].status == Active
      && quantity <= s.products[productId].stock
      && FindLine(s.cartItems, GetOrCreateCart(s, userId).value.1.id, productId).Some?) ==>
      var merged := s.cartItems[FindLine(s.cartItems, GetOrCreateCart(s, userId).value.1.id, productId).value].quantity + quantity;
      s.products[productId].stock < merged ==>
        r == Err(InsufficientStock(s.products[productId].name, s.products[productId].stock, merged))
    ensures r.Ok? <==> (
      && GetOrCreateCart(s, userId).Ok? && productId in s.products
      && s.products[productId].status == Active && quantity <= s.products[productId].stock
      && var line := FindLine(s.cartItems, GetOrCreateCart(s, userId).value.1.id, productId);
      line.Some? ==> s.cartItems[line.value].quantity + quantity <= s.products[productId].stock)
    ensures r.Ok? ==> productId in s.products && s.products[productId].status == Active
    ensures r.Ok? ==> var item := r.value.1;
      && item.product == productId
      && item.quantity <= s.products[productId].stock
      && item in r.value.0.cartItems
      && FindCart(r.value.0.carts, userId) == Some(Cart(item.cart, userId))
    ensures r.Ok? ==> r.value.0.products == s.products && r.value.0.orders == s.orders && r.value.0.users == s.users
  {
    var (s1, cart) :- GetOrCreateCart(s, userId);
    if productId !in s1.products then Err(ResourceNotFound(ProductRow(productId)))
    else
      var product := s1.products[productId];
      if product.status != Active then Err(BadRequest("Product is not available"))
      else if product.stock < quantity then Err(InsufficientStock(product.name, product.stock, quantity))
      else match FindLine(s1.cartItems, cart.id, productId)
        case Some(i) =>
          var merged := s1.cartItems[i].quantity + quantity;
          if product.stock < merged then Err(InsufficientStock(product.name, product.stock, merged))
          else
            var item := s1.cartItems[i].(quantity := merged);
            assert s1.cartItems[i := item][i] == item;
            Ok((s1.(cartItems := s1.cartItems[i := item]), item))
        case None =>
          var item := CartItem(s1.nextId, cart.id, productId, quantity, product.price);
          Ok((s1.(cartItems := s1.cartItems + [item], nextId := s1.nextId + 1), item))
  }

  /** `CartService.updateCartItemQuantity`: set a line's quantity and refresh its price, for the line's owner only. */
  function UpdateCartItemQuantity(s: Store, cartItemId: Id, quantity: int, userId: Id): (r: Result<(Store, CartItem)>)
    ensures FindItem(s.cartItems, cartItemId).None? ==> r == Err(ResourceNotFound(CartItemRow(cartItemId)))
    ensures FindItem(s.cartItems, cartItemId).Some? && !OwnsCart(s.carts, s.cartItems[FindItem(s.cartItems, cartItemId).value].cart, userId) ==>
      r == Err(Unauthorized("You don't have permission to modify this cart item"))
    ensures r.Ok? ==> var i := FindItem(s.cartItems, cartItemId).value;
      var old_ := s.cartItems[i];
      && OwnsCart(s.carts, old_.cart, userId)
      && old_.product in s.products
      && quantity <= s.products[old_.product].stock
      && r.value.1 == old_.(quantity := quantity, price := s.products[old_.product].price)
      && r.value.0 == s.(cartItems := s.cartItems[i := r.value.1])
    ensures (FindItem(s.cartItems, cartItemId).Some?
      && var old_ := s.cartItems[FindItem(s.cartItems, cartItemId).value];
      && OwnsCart(s.carts, old_.cart, userId)
      && old_.product in s.products
      && s.products[old_.product].stock < quantity) ==>
        var p := s.products[s.cartItems[FindItem(s.cartItems, cartItemId).value].product];
        r == Err(InsufficientStock(p.name, p.stock, quantity))
    ensures r.Ok? <==> (FindItem(s.cartItems, cartItemId).Some?
      && var old_ := s.cartItems[FindItem(s.cartItems, cartItemId).value];
      && OwnsCart(s.carts, old_.cart, userId)
      && old_.product in s.products
      && quantity <= s.products[old_.product].stock)
  {
    match FindItem(s.cartItems, cartItemId)
    case None => Err(ResourceNotFound(CartItemRow(cartItemId)))
    case Some(i) =>
      var item := s.cartItems[i];
      if !OwnsCart(s.carts, item.cart, userId) then Err(Unauthorized("You don't have permission to modify this cart item"))
      else if item.product !in s.products then Err(ResourceNotFound(ProductRow(item.product)))
      else
        var product := s.products[item.product];
        if product.stock < quantity then Err(InsufficientStock(product.name, product.stock, quantity))
        else
          var updated := item.(quantity := quantity, price := product.price);
          Ok((s.(cartItems := s.cartItems[i := updated]), updated))
  }

  /** `CartService.removeItemFromCart`: delete one line, for the line's owner only. */
  function RemoveItemFromCart(s: Store, cartItemId: Id, userId: Id): (r: Result<Store>)
    ensures FindItem(s.cartItems, cartItemId).None? ==> r == Err(ResourceNotFound(CartItemRow(cartItemId)))
    ensures r.Ok? <==> (FindItem(s.cartItems, cartItemId).Some?
      && OwnsCart(s.carts, s.cartItems[FindItem(s.cartItems, cartItemId).value].cart, userId))
    ensures FindItem(s.cartItems, cartItemId).Some? && r.Err? ==>
      r == Err(Unauthorized("You don't have permission to remove this cart item"))
    ensures r.Ok? ==> forall x :: x in r.value.cartItems <==> x in s.cartItems && x.id != cartItemId
    ensures r.Ok? ==> r.value == s.(cartItems := r.value.cartItems)
  {
    match FindItem(s.cartItems, cartItemId)
    case None => Err(ResourceNotFound(CartItemRow(cartItemId)))
    case Some(i) =>
      if !OwnsCart(s.carts, s.cartItems[i].cart, userId) then Err(Unauthorized("You don't have permission to remove this cart item"))
      else Ok(s.(cartItems := WithoutItem(s.cartItems, cartItemId)))
  }

  /** `CartService.clearCart`: delete every line of the user's cart. */
  function ClearCart(s: Store, userId: Id): (r: Result<Store>)
    ensures r.Err? <==> FindCart(s.carts, userId).None?
    ensures r.Err? ==> r.error == ResourceNotFound(CartOfUser(userId))
    ensures r.Ok? ==> CartLines(r.value, userId) == []
    ensures r.Ok? ==> forall x :: x in r.value.cartItems <==> x in s.cartItems && x.cart != FindCart(s.carts, userId).value.id
    ensures r.Ok? ==> forall c :: c != FindCart(s.carts, userId).value.id ==> LinesOf(r.value.cartItems, c) == LinesOf(s.cartItems, c)
    ensures r.Ok? ==> r.value == s.(cartItems := r.value.cartItems)
  {
    match FindCart(s.carts, userId)
    case None => Err(ResourceNotFound(CartOfUser(userId)))
    case Some(cart) =>
      var items := WithoutCart(s.cartItems, cart.id);
      WithoutCartEmptiesCart(s.cartItems, cart.id);
      assert forall c :: c != cart.id ==> LinesOf(items, c) == LinesOf(s.cartItems, c) by {
        forall c | c != cart.id
          ensures LinesOf(items, c) == LinesOf(s.cartItems, c)
        {
          WithoutCartKeepsOtherCarts(s.cartItems, cart.id, c);
        }
      }
      Ok(s.(cartItems := items))
  }

  /** With unique cart keys, clearing one user's cart leaves the lines of every other user's cart in place. */
  lemma ClearCartKeepsOtherUsersLines(s: Store, userId: Id)
    requires UniqueCartIds(s.carts)
    requires ClearCart(s, userId).Ok?
    ensures forall c :: c in s.carts && c.user != userId ==>
      LinesOf(ClearCart(s, userId).value.cartItems, c.id) == LinesOf(s.cartItems, c.id)
  {
    var mine := FindCart(s.carts, userId).value;
    forall c | c in s.carts && c.user != userId
      ensures c.id != mine.id
    {
      var k :| 0 <= k < |s.carts| && s.carts[k] == mine;
      var m :| 0 <= m < |s.carts| && s.carts[m] == c;
      assert k != m;
    }
  }

  /** `CartService.calculateCartTotal`: Σ price × quantity over the user's cart. */
  function CalculateCartTotal(s: Store, userId: Id): (r: Result<Money>)
    ensures r.Err? <==> FindCart(s.carts, userId).None?
    ensures r.Err? ==> r.error == ResourceNotFound(CartOfUser(userId))
    ensures r.Ok? && CartLines(s, userId) == [] ==> r.value == 0
    ensures r.Ok? ==> r.value == LinesTotal(CartLines(s, userId))
  {
    match FindCart(s.carts, userId)
    case None => Err(ResourceNotFound(CartOfUser(userId)))
    case Some(cart) => Ok(LinesTotal(LinesOf(s.cartItems, cart.id)))
  }

  /** `CartService.getCartItemCount`: the number of units in the user's cart, 0 without a cart. */
  function GetCartItemCount(s: Store, userId: Id): (r: int)
    ensures FindCart(s.carts, userId).None? ==> r == 0
    ensures CartLines(s, userId) == [] ==> r == 0
    ensures r == QuantitySum(CartLines(s, userId))
  {
    match FindCart(s.carts, userId)
    case None => 0
    case Some(cart) => QuantitySum(LinesOf(s.cartItems, cart.id))
  }

  // ---------------------------------------------------------------------
  // Properties
  // ---------------------------------------------------------------------

  /** A second get-or-create returns the same cart and changes nothing. */
  lemma GetOrCreateCartIdempotent(s: Store, userId: Id)
    requires GetOrCreateCart(s, userId).Ok?
    ensures var (s1, c) := GetOrCreateCart(s, userId).value;
      GetOrCreateCart(s1, userId) == Ok((s1, c))
  {
  }

  /** Get-or-create creates a cart only for a user that has none, so each user keeps at most one. */
  lemma GetOrCreateCartKeepsOneCartPerUser(s: Store, userId: Id)
    requires OneCartPerUser(s.carts)
    requires GetOrCreateCart(s, userId).Ok?
    ensures OneCartPerUser(GetOrCreateCart(s, userId).value.0.carts)
  {
    var carts := GetOrCreateCart(s, userId).value.0.carts;
    if FindCart(s.carts, userId).None? {
      forall i, j | 0 <= i < j < |carts|
        ensures carts[i].user != carts[j].user
      {
        if j == |carts| - 1 {
          assert carts[i] in s.carts;
        }
      }
    }
  }

  /** Get-or-create names a new cart by the fresh counter, so no two carts share a key. */
  lemma GetOrCreateCartKeepsCartIds(s: Store, userId: Id)
    requires UniqueCartIds(s.carts) && forall c :: c in s.carts ==> c.id < s.nextId
    requires GetOrCreateCart(s, userId).Ok?
    ensures UniqueCartIds(GetOrCreateCart(s, userId).value.0.carts)
  {
    var carts := GetOrCreateCart(s, userId).value.0.carts;
    if FindCart(s.carts, userId).None? {
      forall i, j | 0 <= i < j < |carts|
        ensures carts[i].id != carts[j].id
      {
        if j == |carts| - 1 {
          assert carts[i] in s.carts;
        }
      }
    }
  }

  /** Adding merges into the product's existing line (old + q, price kept), or appends a line with the current price. */
  lemma AddItemLine(s: Store, userId: Id, productId: Id, quantity: int)
    requires AddItemToCart(s, userId, productId, quantity).Ok?
    ensures var (s1, cart) := GetOrCreateCart(s, userId).value;
      var (s', item) := AddItemToCart(s, userId, productId, quantity).value;
      match FindLine(s1.cartItems, cart.id, productId)
      case Some(i) =>
        && item == s1.cartItems[i].(quantity := s1.cartItems[i].quantity + quantity)
        && s'.cartItems == s1.cartItems[i := item]
      case None =>
        && item == CartItem(s1.nextId, cart.id, productId, quantity, s.products[productId].price)
        && s'.cartItems == s1.cartItems + [item]
    ensures var s1 := GetOrCreateCart(s, userId).value.0;
      var s' := AddItemToCart(s, userId, productId, quantity).value.0;
      && s' == s1.(cartItems := s'.cartItems, nextId := s'.nextId)
      && s1.nextId <= s'.nextId
  {
  }

  /**
   An add touches only carts, cart lines and `nextId`, keeps cart keys
   unique and one cart per user, and keeps every cart's ids below `nextId`.
   */
  lemma AddItemFrame(s: Store, userId: Id, productId: Id, quantity: int)
    requires FreshIds(s) && UniqueCartIds(s.carts) && OneCartPerUser(s.carts)
    requires AddItemToCart(s, userId, productId, quantity).Ok?
    ensures var s' := AddItemToCart(s, userId, productId, quantity).value.0;
      && s' == s.(carts := s'.carts, cartItems := s'.cartItems, nextId := s'.nextId)
      && s.nextId <= s'.nextId
      && UniqueCartIds(s'.carts) && OneCartPerUser(s'.carts)
      && (forall c :: c in s'.carts ==> c.id < s'.nextId && c.user < s'.nextId)
  {
    GetOrCreateCartKeepsCartIds(s, userId);
    GetOrCreateCartKeepsOneCartPerUser(s, userId);
    AddItemLine(s, userId, productId, quantity);
  }

  /**
   After an add every line has its key and cart below `nextId` and holds a
   non-negative quantity, and no two lines share a key.
   */
  lemma AddItemLinesBounded(s: Store, userId: Id, productId: Id, quantity: int)
    requires FreshIds(s) && UniqueItemIds(s.cartItems) && quantity >= 0
    requires forall x :: x in s.cartItems ==> x.quantity >= 0
    requires AddItemToCart(s, userId, productId, quantity).Ok?
    ensures var s' := AddItemToCart(s, userId, productId, quantity).value.0;
      && (forall x :: x in s'.cartItems ==> x.id < s'.nextId && x.cart < s'.nextId && x.quantity >= 0)
      && UniqueItemIds(s'.cartItems)
  {
    var (s1, cart) := GetOrCreateCart(s, userId).value;
    var (s', item) := AddItemToCart(s, userId, productId, quantity).value;
    AddItemLine(s, userId, productId, quantity);
    assert s1.cartItems == s.cartItems && s1.nextId <= s'.nextId;
    assert cart.id < s1.nextId;
    forall x | x in s'.cartItems
      ensures x.id < s'.nextId && x.cart < s'.nextId && x.quantity >= 0
    {
      var j :| 0 <= j < |s'.cartItems| && s'.cartItems[j] == x;
      if j < |s1.cartItems| && x != s1.cartItems[j] {
        assert x == item;
        assert s1.cartItems[j] in s.cartItems;
      } else if j < |s1.cartItems| {
        assert s1.cartItems[j] in s.cartItems;
      }
    }
    match FindLine(s1.cartItems, cart.id, productId)
    case Some(i) =>
      SameIdsKeepUnique(s1.cartItems, s'.cartItems);
    case None =>
      forall y | y in s1.cartItems
        ensures y.id != item.id
      {
        assert y in s.cartItems;
      }
      assert s'.cartItems == s1.cartItems + [item];
      UniqueIdsSnoc(s1.cartItems, item);
  }

  /** The merged quantity is checked against stock, not just the added quantity. */
  lemma AddItemMergeOverStock(s: Store, userId: Id, productId: Id, quantity: int)
    requires GetOrCreateCart(s, userId).Ok?
    requires productId in s.products && s.products[productId].status == Active
    requires quantity <= s.products[productId].stock
    requires var (s1, cart) := GetOrCreateCart(s, userId).value;
      && FindLine(s1.cartItems, cart.id, productId).Some?
      && s.products[productId].stock < s1.cartItems[FindLine(s1.cartItems, cart.id, productId).value].quantity + quantity
    ensures var (s1, cart) := GetOrCreateCart(s, userId).value;
      var p := s.products[productId];
      AddItemToCart(s, userId, productId, quantity)
        == Err(InsufficientStock(p.name, p.stock, s1.cartItems[FindLine(s1.cartItems, cart.id, productId).value].quantity + quantity))
  {
  }

  /** Adding keeps at most one line per (cart, product). */
  lemma AddItemKeepsUniqueLines(s: Store, userId: Id, productId: Id, quantity: int)
    requires UniqueCartLines(s.cartItems)
    requires AddItemToCart(s, userId, productId, quantity).Ok?
    ensures UniqueCartLines(AddItemToCart(s, userId, productId, quantity).value.0.cartItems)
  {
    var (s1, cart) := GetOrCreateCart(s, userId).value;
    var items := AddItemToCart(s, userId, productId, quantity).value.0.cartItems;
    AddItemLine(s, userId, productId, quantity);
    match FindLine(s1.cartItems, cart.id, productId)
    case Some(i) =>
      forall a, b | 0 <= a < b < |items|
        ensures !(items[a].cart == items[b].cart && items[a].product == items[b].product)
      {
        assert SameLine(items[a], s1.cartItems[a]) && SameLine(items[b], s1.cartItems[b]);
      }
    case None =>
      forall a, b | 0 <= a < b < |items|
        ensures !(items[a].cart == items[b].cart && items[a].product == items[b].product)
      {
        if b == |items| - 1 {
          assert items[a] == s1.cartItems[a];
        } else {
          assert items[a] == s1.cartItems[a] && items[b] == s1.cartItems[b];
        }
      }
  }

  /** The cart lines before and after an add are those of the cart get-or-create returned. */
  lemma AddItemCartLines(s: Store, userId: Id, productId: Id, quantity: int)
    requires FreshIds(s)
    requires AddItemToCart(s, userId, productId, quantity).Ok?
    ensures var cart := GetOrCreateCart(s, userId).value.1;
      && CartLines(s, userId) == LinesOf(GetOrCreateCart(s, userId).value.0.cartItems, cart.id)
      && CartLines(AddItemToCart(s, userId, productId, quantity).value.0, userId)
         == LinesOf(AddItemToCart(s, userId, productId, quantity).value.0.cartItems, cart.id)
  {
    if FindCart(s.carts, userId).None? {
      LinesOfAbsent(s.cartItems, s.nextId);
    }
  }

  lemma Distribute(a: int, b: int, c: int)
    ensures a * (b + c) == a * b + a * c
  {
  }

  /** Merging q more units into a line of a cart raises that cart's sums by q units at the line's price. */
  lemma MergeSums(items: seq<CartItem>, i: nat, item: CartItem, quantity: int, cart: Id)
    requires i < |items| && items[i].cart == cart
    requires item == items[i].(quantity := items[i].quantity + quantity)
    ensures QuantitySum(LinesOf(items[i := item], cart)) == QuantitySum(LinesOf(items, cart)) + quantity
    ensures LinesTotal(LinesOf(items[i := item], cart)) == LinesTotal(LinesOf(items, cart)) + item.price * quantity
  {
    LinesOfUpdate(items, i, item, cart);
    Distribute(item.price, items[i].quantity, quantity);
  }

  /** Appending a line to a cart raises that cart's sums by the line's quantity and subtotal. */
  lemma AppendSums(items: seq<CartItem>, item: CartItem, quantity: int, cart: Id)
    requires item.cart == cart && item.quantity == quantity
    ensures QuantitySum(LinesOf(items + [item], cart)) == QuantitySum(LinesOf(items, cart)) + quantity
    ensures LinesTotal(LinesOf(items + [item], cart)) == LinesTotal(LinesOf(items, cart)) + item.price * quantity
  {
    var before := LinesOf(items, cart);
    LinesOfAppend(items, item, cart);
    QuantitySumAppend(before, [item]);
    LinesTotalAppend(before, [item]);
  }

  /** Adding q units raises the cart's count by q and its total by q times the line's price snapshot. */
  lemma AddItemRaisesSums(s: Store, userId: Id, productId: Id, quantity: int)
    requires FreshIds(s)
    requires AddItemToCart(s, userId, productId, quantity).Ok?
    ensures var (s', item) := AddItemToCart(s, userId, productId, quantity).value;
      && GetCartItemCount(s', userId) == GetCartItemCount(s, userId) + quantity
      && LinesTotal(CartLines(s', userId)) == LinesTotal(CartLines(s, userId)) + item.price * quantity
  {
    var g := GetOrCreateCart(s, userId).value;
    var s1, cart := g.0, g.1;
    var res := AddItemToCart(s, userId, productId, quantity).value;
    var s', item := res.0, res.1;
    var before := LinesOf(s1.cartItems, cart.id);
    var after := LinesOf(s'.cartItems, cart.id);
    assert QuantitySum(after) == QuantitySum(before) + quantity
        && LinesTotal(after) == LinesTotal(before) + item.price * quantity by {
      AddItemLine(s, userId, productId, quantity);
      match FindLine(s1.cartItems, cart.id, productId)
      case Some(i) =>
        MergeSums(s1.cartItems, i, item, quantity, cart.id);
      case None =>
        AppendSums(s1.cartItems, item, quantity, cart.id);
    }
    AddItemCartLines(s, userId, productId, quantity);
  }

  /** Updating keeps at most one line per (cart, product) and moves the count by the change in quantity. */
  lemma UpdateQuantityEffects(s: Store, cartItemId: Id, quantity: int, userId: Id)
    requires UniqueCartLines(s.cartItems)
    requires OneCartPerUser(s.carts)
    requires UpdateCartItemQuantity(s, cartItemId, quantity, userId).Ok?
    ensures var s' := UpdateCartItemQuantity(s, cartItemId, quantity, userId).value.0;
      var before := s.cartItems[FindItem(s.cartItems, cartItemId).value];
      && UniqueCartLines(s'.cartItems)
      && GetCartItemCount(s', userId) == GetCartItemCount(s, userId) - before.quantity + quantity
  {
    var i := FindItem(s.cartItems, cartItemId).value;
    var res := UpdateCartItemQuantity(s, cartItemId, quantity, userId).value;
    var s', item := res.0, res.1;
    var items := s'.cartItems;
    assert items == s.cartItems[i := item];
    forall a, b | 0 <= a < b < |items|
      ensures !(items[a].cart == items[b].cart && items[a].product == items[b].product)
    {
      assert SameLine(items[a], s.cartItems[a]) && SameLine(items[b], s.cartItems[b]);
    }
    var cart := FindCartById(s.carts, s.cartItems[i].cart).value;
    FindCartUnique(s.carts, cart);
    assert s'.carts == s.carts;
    LinesOfUpdate(s.cartItems, i, item, cart.id);
  }

  /** Removing and clearing keep at most one line per (cart, product), and line keys unique. */
  lemma RemoveAndClearKeepUniqueLines(s: Store, cartItemId: Id, userId: Id)
    requires UniqueCartLines(s.cartItems) && UniqueItemIds(s.cartItems)
    ensures RemoveItemFromCart(s, cartItemId, userId).Ok? ==>
      var items := RemoveItemFromCart(s, cartItemId, userId).value.cartItems;
      UniqueCartLines(items) && UniqueItemIds(items)
    ensures ClearCart(s, userId).Ok? ==>
      var items := ClearCart(s, userId).value.cartItems;
      UniqueCartLines(items) && UniqueItemIds(items)
  {
    WithoutItemKeepsUnique(s.cartItems, cartItemId);
    WithoutItemKeepsIds(s.cartItems, cartItemId);
    if FindCart(s.carts, userId).Some? {
      WithoutCartKeepsUnique(s.cartItems, FindCart(s.carts, userId).value.id);
      WithoutCartKeepsIds(s.cartItems, FindCart(s.carts, userId).value.id);
    }
  }

  /** With unique line keys, removing a line deletes exactly one row, the caller's. */
  lemma RemoveItemDeletesOneRow(s: Store, cartItemId: Id, userId: Id)
    requires UniqueItemIds(s.cartItems)
    requires RemoveItemFromCart(s, cartItemId, userId).Ok?
    ensures var items := RemoveItemFromCart(s, cartItemId, userId).value.cartItems;
      && |items| == |s.cartItems| - 1
      && forall x :: x in s.cartItems && x.id == cartItemId ==> OwnsCart(s.carts, x.cart, userId)
  {
    WithoutItemRemovesOne(s.cartItems, cartItemId);
    var i := FindItem(s.cartItems, cartItemId).value;
    forall x | x in s.cartItems && x.id == cartItemId
      ensures OwnsCart(s.carts, x.cart, userId)
    {
      var j :| 0 <= j < |s.cartItems| && s.cartItems[j] == x;
      assert j == i;
    }
  }
}

=== FILE: domain.dfy ===
/**
 The entities of the shop, the abstract store that replaces the repositories,
 the error values the services throw, and the repository queries they use.

 Every service operation is a pure function from a `Store` to a `Result`: a
 failure carries no store, which models the rollback of the transaction that
 wraps each service call.
 */
module Domain {

  /** Database primary keys (Java `Long`). */
  type Id = int

  /** An exact amount of money in the smallest currency unit (the source uses `BigDecimal`). */
  type Money = int

  datatype Option<+T> = None | Some(value: T)

  /** The row a failed lookup was looking for. */
  datatype Resource =
    | UserRow(userId: Id)
    | CartOfUser(userId: Id)
    | ProductRow(productId: Id)
    | CartItemRow(cartItemId: Id)
    | AddressRow(addressId: Id)
    | OrderRow(orderId: Id)
    | WishlistEntry(userId: Id, productId: Id)

  /** The exceptions the services throw. */
  datatype Error =
    | ResourceNotFound(resource: Resource)
    | BadRequest(message: string)
    | Unauthorized(message: string)
    | InsufficientStock(productName: string, available: int, requested: int)
    | IllegalArgument(message: string)

  datatype Result<+T> = Ok(value: T) | Err(error: Error) {
    predicate IsFailure() {
      Err?
    }

    function PropagateFailure<U>(): Result<U>
      requires Err?
    {
      Err(error)
    }

    function Extract(): T
      requires Ok?
    {
      value
    }
  }

  datatype ProductStatus = Active | OutOfStock

  /** Java's `OrderStatus`; only the constants the services name are spelled out. */
  datatype OrderStatus = Pending | Delivered | Cancelled | OtherOrderStatus(name: string)

  datatype PaymentStatus = PaymentPending | OtherPaymentStatus(name: string)

  datatype PaymentMethod = Cod | OtherPaymentMethod(name: string)

  datatype User = User(
    firstName: string,
    lastName: string,
    email: string,
    phone: string,
    password: string,
    role: string,
    isActive: bool)

  datatype Category = Category(name: string)

  datatype Product = Product(
    name: string,
    description: string,
    price: Money,
    stock: int,
    imageUrl: string,
    status: ProductStatus,
    category: Option<Id>,
    artisan: Option<Id>)

  datatype Cart = Cart(id: Id, user: Id)

  /** A cart line; `price` is the unit price snapshot taken when the line was written. */
  datatype CartItem = CartItem(id: Id, cart: Id, product: Id, quantity: int, price: Money)

  datatype OrderItem = OrderItem(product: Id, productName: string, quantity: int, price: Money, subtotal: Money)

  datatype Order = Order(
    user: Id,
    total: Money,
    status: OrderStatus,
    paymentStatus: PaymentStatus,
    paymentMethod: PaymentMethod,
    shippingAddress: string,
    shippingCity: string,
    shippingState: string,
    shippingPostalCode: string,
    shippingCountry: string,
    orderDate: int,
    deliveryDate: Option<int>,
    items: seq<OrderItem>)

  datatype Address = Address(
    id: Id,
    user: Id,
    addressType: string,
    street: string,
    city: string,
    state: string,
    postalCode: string,
    country: string,
    isDefault: bool)

  /** One wishlist row: a (user, product) pair. */
  datatype Wish = Wish(user: Id, product: Id)

  datatype Store = Store(
    users: map<Id, User>,
    products: map<Id, Product>,
    categories: map<Id, Category>,
    carts: seq<Cart>,
    cartItems: seq<CartItem>,
    orders: map<Id, Order>,
    wishlist: seq<Wish>,
    addresses: seq<Address>,
    nextId: Id)

  // ---------------------------------------------------------------------
  // Repository queries
  // ---------------------------------------------------------------------

  /** `CartRepository.findByUserId`: the first cart owned by `user`. */
  function FindCart(carts: seq<Cart>, user: Id): (r: Option<Cart>)
    ensures r.Some? ==> r.value in carts && r.value.user == user
    ensures r.None? <==> forall c :: c in carts ==> c.user != user
  {
    if |carts| == 0 then None
    else if carts[0].user == user then Some(carts[0])
    else FindCart(carts[1..], user)
  }

  /** The cart row with primary key `id`. */
  function FindCartById(carts: seq<Cart>, id: Id): (r: Option<Cart>)
    ensures r.Some? ==> r.value in carts && r.value.id == id
    ensures r.None? <==> forall c :: c in carts ==> c.id != id
  {
    if |carts| == 0 then None
    else if carts[0].id == id then Some(carts[0])
    else FindCartById(carts[1..], id)
  }

  /** `cartItem.getCart().getUser().getId().equals(user)`. */
  predicate OwnsCart(carts: seq<Cart>, cartId: Id, user: Id) {
    match FindCartById(carts, cartId)
    case Some(c) => c.user == user
    case None => false
  }

  /** `CartItemRepository.findById`: position of the first line with primary key `id`. */
  function FindItem(items: seq<CartItem>, id: Id): (r: Option<nat>)
    ensures r.Some? ==> r.value < |items| && items[r.value].id == id
    ensures r.None? <==> forall j :: 0 <= j < |items| ==> items[j].id != id
  {
    if |items| == 0 then None
    else if items[0].id == id then Some(0)
    else match FindItem(items[1..], id)
      case None => None
      case Some(k) => Some(k + 1)
  }

  /** `CartItemRepository.findByCartIdAndProductId`: position of the line of `product` in `cart`. */
  function FindLine(items: seq<CartItem>, cart: Id, product: Id): (r: Option<nat>)
    ensures r.Some? ==> r.value < |items| && items[r.value].cart == cart && items[r.value].product == product
    ensures r.None? <==> forall j :: 0 <= j < |items| ==> !(items[j].cart == cart && items[j].product == product)
  {
    if |items| == 0 then None
    else if items[0].cart == cart && items[0].product == product then Some(0)
    else match FindLine(items[1..], cart, product)
      case None => None
      case Some(k) => Some(k + 1)
  }

  /** `CartItemRepository.findByCartId`: the lines of one cart, in table order. */
  function LinesOf(items: seq<CartItem>, cart: Id): (r: seq<CartItem>)
    ensures forall x :: x in r <==> x in items && x.cart == cart
    ensures |r| <= |items|
  {
    if |items| == 0 then []
    else if items[0].cart == cart then [items[0]] + LinesOf(items[1..], cart)
    else LinesOf(items[1..], cart)
  }

  /** `CartItemRepository.deleteByCartId`: the table without the lines of one cart. */
  function WithoutCart(items: seq<CartItem>, cart: Id): (r: seq<CartItem>)
    ensures forall x :: x in r <==> x in items && x.cart != cart
    ensures |r| <= |items|
  {
    if |items| == 0 then []
    else if items[0].cart == cart then WithoutCart(items[1..], cart)
    else [items[0]] + WithoutCart(items[1..], cart)
  }

  /** `CartItemRepository.deleteById`: the table without the line with primary key `id`. */
  function WithoutItem(items: seq<CartItem>, id: Id): (r: seq<CartItem>)
    ensures forall x :: x in r <==> x in items && x.id != id
    ensures |r| <= |items|
  {
    if |items| == 0 then []
    else if items[0].id == id then WithoutItem(items[1..], id)
    else [items[0]] + WithoutItem(items[1..], id)
  }

  /** Σ price × quantity over some cart lines (`BigDecimal.multiply` then `add`, from zero). */
  function LinesTotal(lines: seq<CartItem>): Money
  {
    if |lines| == 0 then 0 else lines[0].price * lines[0].quantity + LinesTotal(lines[1..])
  }

  /** Σ quantity over some cart lines (`COALESCE(SUM(ci.quantity), 0)`). */
  function QuantitySum(lines: seq<CartItem>): int
  {
    if |lines| == 0 then 0 else lines[0].quantity + QuantitySum(lines[1..])
  }

  /** The lines of the cart of `user`, empty when the user has no cart. */
  function CartLines(s: Store, user: Id): seq<CartItem>
  {
    match FindCart(s.carts, user)
    case Some(c) => LinesOf(s.cartItems, c.id)
    case None => []
  }

  /** `UserAddressRepository.findById`: position of the address with primary key `id`. */
  function FindAddress(addresses: seq<Address>, id: Id): (r: Option<nat>)
    ensures r.Some? ==> r.value < |addresses| && addresses[r.value].id == id
    ensures r.None? <==> forall j :: 0 <= j < |addresses| ==> addresses[j].id != id
  {
    if |addresses| == 0 then None
    else if addresses[0].id == id then Some(0)
    else match FindAddress(addresses[1..], id)
      case None => None
      case Some(k) => Some(k + 1)
  }

  /** `UserAddressRepository.findByUserIdAndIsDefaultTrue`: position of the default address of `user`. */
  function FindDefault(addresses: seq<Address>, user: Id): (r: Option<nat>)
    ensures r.Some? ==> r.value < |addresses| && addresses[r.value].user == user && addresses[r.value].isDefault
    ensures r.Some? ==> forall j :: 0 <= j < r.value ==> !(addresses[j].user == user && addresses[j].isDefault)
    ensures r.None? <==> forall j :: 0 <= j < |addresses| ==> !(addresses[j].user == user && addresses[j].isDefault)
  {
    if |addresses| == 0 then None
    else if addresses[0].user == user && addresses[0].isDefault then Some(0)
    else match FindDefault(addresses[1..], user)
      case None => None
      case Some(k) => Some(k + 1)
  }

  /** `UserRepository.existsByEmail`. */
  predicate EmailTaken(users: map<Id, User>, email: string) {
    exists id :: id in users && users[id].email == email
  }

  // ---------------------------------------------------------------------
  // Store invariants
  // ---------------------------------------------------------------------

  predicate StocksNonNegative(products: map<Id, Product>) {
    forall id :: id in products ==> products[id].stock >= 0
  }

  /** At most one line per (cart, product): what `addItemToCart` maintains by merging. */
  predicate UniqueCartLines(items: seq<CartItem>) {
    forall i, j :: 0 <= i < j < |items| ==> !(items[i].cart == items[j].cart && items[i].product == items[j].product)
  }

  /** Cart lines are rows of one table: no two share a primary key. */
  predicate UniqueItemIds(items: seq<CartItem>) {
    forall i, j :: 0 <= i < j < |items| ==> items[i].id != items[j].id
  }

  /** Carts are rows of one table: no two share a primary key. */
  predicate UniqueCartIds(carts: seq<Cart>) {
    forall i, j :: 0 <= i < j < |carts| ==> carts[i].id != carts[j].id
  }

  predicate OneCartPerUser(carts: seq<Cart>) {
    forall i, j :: 0 <= i < j < |carts| ==> carts[i].user != carts[j].user
  }

  predicate AtMostOneDefault(addresses: seq<Address>) {
    forall i, j :: 0 <= i < j < |addresses| && addresses[i].isDefault && addresses[j].isDefault ==>
      addresses[i].user != addresses[j].user
  }

  predicate UniqueWishes(wishlist: seq<Wish>) {
    forall i, j :: 0 <= i < j < |wishlist| ==> wishlist[i] != wishlist[j]
  }

  predicate UniqueEmails(users: map<Id, User>) {
    forall a, b :: a in users && b in users && a != b ==> users[a].email != users[b].email
  }

  /** Identifiers handed out so far are below `nextId`. */
  predicate FreshIds(s: Store) {
    && (forall id :: id in s.users ==> id < s.nextId)
    && (forall id :: id in s.orders ==> id < s.nextId)
    && (forall c :: c in s.carts ==> c.id < s.nextId && c.user < s.nextId)
    && (forall x :: x in s.cartItems ==> x.id < s.nextId && x.cart < s.nextId)
  }

  predicate Valid(s: Store) {
    && StocksNonNegative(s.products)
    && UniqueCartLines(s.cartItems)
    && UniqueItemIds(s.cartItems)
    && UniqueCartIds(s.carts)
    && OneCartPerUser(s.carts)
    && AtMostOneDefault(s.addresses)
    && UniqueWishes(s.wishlist)
    && UniqueEmails(s.users)
    && FreshIds(s)
  }

  // ---------------------------------------------------------------------
  // Facts about the queries
  // ---------------------------------------------------------------------

  lemma {:induction false} LinesTotalAppend(a: seq<CartItem>, b: seq<CartItem>)
    ensures LinesTotal(a + b) == LinesTotal(a) + LinesTotal(b)
  {
    if |a| == 0 {
      assert a + b == b;
    } else {
      assert (a + b)[1..] == a[1..] + b;
      LinesTotalAppend(a[1..], b);
    }
  }

  lemma {:induction false} QuantitySumAppend(a: seq<CartItem>, b: seq<CartItem>)
    ensures QuantitySum(a + b) == QuantitySum(a) + QuantitySum(b)
  {
    if |a| == 0 {
      assert a + b == b;
    } else {
      assert (a + b)[1..] == a[1..] + b;
      QuantitySumAppend(a[1..], b);
    }
  }

  lemma {:induction false} LinesOfAppend(items: seq<CartItem>, x: CartItem, cart: Id)
    ensures LinesOf(items + [x], cart) == LinesOf(items, cart) + (if x.cart == cart then [x] else [])
  {
    if |items| == 0 {
      assert items + [x] == [x];
    } else {
      assert (items + [x])[1..] == items[1..] + [x];
      LinesOfAppend(items[1..], x, cart);
    }
  }

  predicate SameLine(x: CartItem, y: CartItem) {
    x.cart == y.cart && x.product == y.product
  }

  lemma UniqueLinesTail(items: seq<CartItem>)
    requires UniqueCartLines(items)
    requires |items| > 0
    ensures UniqueCartLines(items[1..])
    ensures forall y :: y in items[1..] ==> !SameLine(items[0], y)
  {
    var rest := items[1..];
    forall i, j | 0 <= i < j < |rest|
      ensures !(rest[i].cart == rest[j].cart && rest[i].product == rest[j].product)
    {
      assert rest[i] == items[i + 1] && rest[j] == items[j + 1];
    }
    forall y | y in rest
      ensures !SameLine(items[0], y)
    {
      var k :| 0 <= k < |rest| && rest[k] == y;
      assert items[k + 1] == y;
    }
  }

  lemma UniqueLinesCons(x: CartItem, rest: seq<CartItem>)
    requires UniqueCartLines(rest)
    requires forall y :: y in rest ==> !SameLine(x, y)
    ensures UniqueCartLines([x] + rest)
  {
    var r := [x] + rest;
    forall i, j | 0 <= i < j < |r|
      ensures !(r[i].cart == r[j].cart && r[i].product == r[j].product)
    {
      if i == 0 {
        assert r[j] == rest[j - 1] && r[j] in rest;
      } else {
        assert r[i] == rest[i - 1] && r[j] == rest[j - 1];
      }
    }
  }

  lemma {:induction false} WithoutItemKeepsUnique(items: seq<CartItem>, id: Id)
    requires UniqueCartLines(items)
    ensures UniqueCartLines(WithoutItem(items, id))
  {
    if |items| > 0 {
      UniqueLinesTail(items);
      WithoutItemKeepsUnique(items[1..], id);
      if items[0].id != id {
        UniqueLinesCons(items[0], WithoutItem(items[1..], id));
      }
    }
  }

  lemma {:induction false} WithoutCartKeepsUnique(items: seq<CartItem>, cart: Id)
    requires UniqueCartLines(items)
    ensures UniqueCartLines(WithoutCart(items, cart))
  {
    if |items| > 0 {
      UniqueLinesTail(items);
      WithoutCartKeepsUnique(items[1..], cart);
      if items[0].cart != cart {
        UniqueLinesCons(items[0], WithoutCart(items[1..], cart));
      }
    }
  }

  lemma UniqueIdsTail(items: seq<CartItem>)
    requires UniqueItemIds(items)
    requires |items| > 0
    ensures UniqueItemIds(items[1..])
    ensures forall y :: y in items[1..] ==> y.id != items[0].id
  {
    var rest := items[1..];
    forall i, j | 0 <= i < j < |rest|
      ensures rest[i].id != rest[j].id
    {
      assert rest[i] == items[i + 1] && rest[j] == items[j + 1];
    }
    forall y | y in rest
      ensures y.id != items[0].id
    {
      var k :| 0 <= k < |rest| && rest[k] == y;
      assert items[k + 1] == y;
    }
  }

  lemma UniqueIdsCons(x: CartItem, rest: seq<CartItem>)
    requires UniqueItemIds(rest)
    requires forall y :: y in rest ==> y.id != x.id
    ensures UniqueItemIds([x] + rest)
  {
    var r := [x] + rest;
    forall i, j | 0 <= i < j < |r|
      ensures r[i].id != r[j].id
    {
      if i == 0 {
        assert r[j] == rest[j - 1] && r[j] in rest;
      } else {
        assert r[i] == rest[i - 1] && r[j] == rest[j - 1];
      }
    }
  }

  lemma {:induction false} WithoutItemKeepsIds(items: seq<CartItem>, id: Id)
    requires UniqueItemIds(items)
    ensures UniqueItemIds(WithoutItem(items, id))
  {
    if |items| > 0 {
      UniqueIdsTail(items);
      WithoutItemKeepsIds(items[1..], id);
      if items[0].id != id {
        UniqueIdsCons(items[0], WithoutItem(items[1..], id));
      }
    }
  }

  lemma {:induction false} WithoutCartKeepsIds(items: seq<CartItem>, cart: Id)
    requires UniqueItemIds(items)
    ensures UniqueItemIds(WithoutCart(items, cart))
  {
    if |items| > 0 {
      UniqueIdsTail(items);
      WithoutCartKeepsIds(items[1..], cart);
      if items[0].cart != cart {
        UniqueIdsCons(items[0], WithoutCart(items[1..], cart));
      }
    }
  }

  lemma UniqueIdsSnoc(items: seq<CartItem>, x: CartItem)
    requires UniqueItemIds(items)
    requires forall y :: y in items ==> y.id != x.id
    ensures UniqueItemIds(items + [x])
  {
    var r := items + [x];
    forall i, j | 0 <= i < j < |r|
      ensures r[i].id != r[j].id
    {
      assert r[i] == items[i] && r[i] in items;
    }
  }

  /** A table that holds no line with primary key `id` loses nothing to `deleteById`. */
  lemma {:induction false} WithoutItemAbsent(items: seq<CartItem>, id: Id)
    requires forall x :: x in items ==> x.id != id
    ensures WithoutItem(items, id) == items
  {
    if |items| > 0 {
      WithoutItemAbsent(items[1..], id);
    }
  }

  /** With unique primary keys, `deleteById` of a present id removes exactly one row. */
  lemma {:induction false} WithoutItemRemovesOne(items: seq<CartItem>, id: Id)
    requires UniqueItemIds(items)
    requires FindItem(items, id).Some?
    ensures |WithoutItem(items, id)| == |items| - 1
  {
    UniqueIdsTail(items);
    if items[0].id == id {
      WithoutItemAbsent(items[1..], id);
    } else {
      WithoutItemRemovesOne(items[1..], id);
    }
  }

  /** Rewriting rows in place without changing their keys keeps the keys unique. */
  lemma SameIdsKeepUnique(a: seq<CartItem>, b: seq<CartItem>)
    requires UniqueItemIds(a)
    requires |a| == |b| && forall j :: 0 <= j < |a| ==> a[j].id == b[j].id
    ensures UniqueItemIds(b)
  {
  }

  /** Deleting the lines of one cart leaves the lines of every other cart as they were. */
  lemma {:induction false} WithoutCartKeepsOtherCarts(items: seq<CartItem>, cart: Id, other: Id)
    requires other != cart
    ensures LinesOf(WithoutCart(items, cart), other) == LinesOf(items, other)
  {
    if |items| > 0 {
      WithoutCartKeepsOtherCarts(items[1..], cart, other);
    }
  }

  /** Rewriting one line of a cart in place changes that cart's sums by the difference. */
  lemma {:induction false} LinesOfUpdate(items: seq<CartItem>, i: nat, x: CartItem, cart: Id)
    requires i < |items|
    requires items[i].cart == cart && x.cart == cart
    ensures QuantitySum(LinesOf(items[i := x], cart)) == QuantitySum(LinesOf(items, cart)) - items[i].quantity + x.quantity
    ensures LinesTotal(LinesOf(items[i := x], cart))
      == LinesTotal(LinesOf(items, cart)) - items[i].price * items[i].quantity + x.price * x.quantity
  {
    if i == 0 {
      assert items[i := x][1..] == items[1..];
    } else {
      assert items[i := x][1..] == items[1..][i - 1 := x];
      LinesOfUpdate(items[1..], i - 1, x, cart);
    }
  }

  /** Rewriting a line in place leaves the lines of other carts as they were. */
  lemma {:induction false} LinesOfUpdateOther(items: seq<CartItem>, i: nat, x: CartItem, other: Id)
    requires i < |items|
    requires items[i].cart != other && x.cart != other
    ensures LinesOf(items[i := x], other) == LinesOf(items, other)
  {
    if i == 0 {
      assert items[i := x][1..] == items[1..];
    } else {
      assert items[i := x][1..] == items[1..][i - 1 := x];
      LinesOfUpdateOther(items[1..], i - 1, x, other);
    }
  }

  /** A cart with no line in the table has no lines. */
  lemma {:induction false} LinesOfAbsent(items: seq<CartItem>, cart: Id)
    requires forall x :: x in items ==> x.cart != cart
    ensures LinesOf(items, cart) == []
  {
    if |items| > 0 {
      LinesOfAbsent(items[1..], cart);
    }
  }

  /** A cart appended after every cart of other users is found for its user. */
  lemma {:induction false} FindCartAppend(carts: seq<Cart>, c: Cart)
    requires FindCart(carts, c.user).None?
    ensures FindCart(carts + [c], c.user) == Some(c)
  {
    if |carts| == 0 {
      assert carts + [c] == [c];
    } else {
      assert (carts + [c])[1..] == carts[1..] + [c];
      FindCartAppend(carts[1..], c);
    }
  }

  /** Appending a cart does not change which cart other users find. */
  lemma {:induction false} FindCartAppendOther(carts: seq<Cart>, c: Cart, user: Id)
    requires c.user != user
    ensures FindCart(carts + [c], user) == FindCart(carts, user)
  {
    if |carts| == 0 {
      assert carts + [c] == [c];
    } else {
      assert (carts + [c])[1..] == carts[1..] + [c];
      FindCartAppendOther(carts[1..], c, user);
    }
  }

  /** Deleting a cart's lines leaves that cart with none. */
  lemma {:induction false} WithoutCartEmptiesCart(items: seq<CartItem>, cart: Id)
    ensures LinesOf(WithoutCart(items, cart), cart) == []
  {
    if |items| > 0 {
      WithoutCartEmptiesCart(items[1..], cart);
    }
  }

  /** With one cart per user, the cart `FindCart` returns is the user's only cart. */
  lemma {:induction false} FindCartUnique(carts: seq<Cart>, c: Cart)
    requires OneCartPerUser(carts)
    requires c in carts
    ensures FindCart(carts, c.user) == Some(c)
  {
    if carts[0] != c {
      assert carts[0].user != c.user by {
        var k :| 0 <= k < |carts| && carts[k] == c;
        assert k > 0;
      }
      assert OneCartPerUser(carts[1..]) by {
        forall i, j | 0 <= i < j < |carts[1..]|
          ensures carts[1..][i].user != carts[1..][j].user
        {
          assert carts[1..][i] == carts[i + 1] && carts[1..][j] == carts[j + 1];
        }
      }
      FindCartUnique(carts[1..], c);
    }
  }

  /** The lines of one cart inherit the one-line-per-product property, now per product alone. */
  lemma {:induction false} LinesOfDistinctProducts(items: seq<CartItem>, cart: Id)
    requires UniqueCartLines(items)
    ensures forall i, j :: 0 <= i < j < |LinesOf(items, cart)| ==>
      LinesOf(items, cart)[i].product != LinesOf(items, cart)[j].product
  {
    if |items| > 0 {
      var rest := items[1..];
      UniqueLinesTail(items);
      LinesOfDistinctProducts(rest, cart);
      if items[0].cart == cart {
        var tail := LinesOf(rest, cart);
        var r := LinesOf(items, cart);
        assert r == [items[0]] + tail;
        forall j | 0 <= j < |tail|
          ensures tail[j].product != items[0].product
        {
          assert tail[j] in rest && tail[j].cart == cart;
          assert !SameLine(items[0], tail[j]);
        }
        forall i, j | 0 <= i < j < |r|
          ensures r[i].product != r[j].product
        {
          assert r[j] == tail[j - 1];
          if i > 0 {
            assert r[i] == tail[i - 1];
          }
        }
      }
    }
  }
}

=== FILE: exception_handler.dfy ===
/**
 `GlobalExceptionHandler` as a pure function from a thrown exception and the
 request description to the error response body.
 */
module ExceptionHandler {
  import opened Domain

  /** A `FieldError` of a failed bean validation. */
  datatype FieldError = FieldError(field: string, message: string)

  /** The exception kinds the handler distinguishes; each carries `getMessage()`. */
  datatype Thrown =
    | ResourceNotFoundEx(message: string)
    | BadRequestEx(message: string)
    | UnauthorizedEx(message: string)
    | InsufficientStockEx(message: string)
    | ValidationEx(errors: seq<FieldError>)
    | BadCredentialsEx(message: string)
    | UsernameNotFoundEx(message: string)
    /** Any other `RuntimeException`, `IllegalArgumentException` among them. */
    | OtherRuntimeEx(message: string)
    /** Any other checked `Exception`. */
    | OtherCheckedEx(message: string)

  /** `ErrorResponse`, or the map built for validation failures; the timestamp is not modelled. */
  datatype Response =
    | ErrorBody(status: int, error: string, message: string, path: string)
    | ValidationBody(status: int, error: string, errors: map<string, string>, path: string)

  const Uri: string := "uri="

  /** `"uri="` starts at position `i` of `s`. */
  predicate UriAt(s: string, i: nat) {
    i + |Uri| <= |s| && s[i..i + |Uri|] == Uri
  }

  predicate HasUri(s: string) {
    exists i: nat | i < |s| :: UriAt(s, i)
  }

  /**
   `String.replace("uri=", "")`: deletes the occurrences found in one
   left-to-right scan, each resumed after the previous one.
   */
  function StripUri(s: string): (r: string)
    ensures |r| <= |s|
    decreases |s|
  {
    if |s| < |Uri| then s
    else if s[..|Uri|] == Uri then StripUri(s[|Uri|..])
    else [s[0]] + StripUri(s[1..])
  }

  /** The handler for each exception kind: status code, error label and message. */
  function Handle(ex: Thrown, description: string): (r: Response)
    ensures r.path == StripUri(description)
    ensures r.ValidationBody? <==> ex.ValidationEx?
    ensures r.status == 404 <==> ex.ResourceNotFoundEx? || ex.UsernameNotFoundEx?
    ensures r.status == 401 <==> ex.UnauthorizedEx? || ex.BadCredentialsEx?
    ensures r.status == 400 <==> ex.BadRequestEx? || ex.InsufficientStockEx? || ex.ValidationEx?
    ensures r.status == 500 <==> ex.OtherRuntimeEx? || ex.OtherCheckedEx?
    ensures r.ErrorBody? && !ex.BadCredentialsEx? && !ex.OtherCheckedEx? ==> r.message == ex.message
    ensures ex.BadCredentialsEx? ==> r.message == "Invalid email or password"
    ensures ex.OtherCheckedEx? ==> r.message == "An unexpected error occurred: " + ex.message
    ensures ex.ResourceNotFoundEx? ==> r.error == "Not Found"
    ensures ex.BadRequestEx? ==> r.error == "Bad Request"
    ensures ex.UnauthorizedEx? ==> r.error == "Unauthorized"
    ensures ex.InsufficientStockEx? ==> r.error == "Insufficient Stock"
    ensures ex.ValidationEx? ==> r.error == "Validation Failed" && r.errors == FieldMessages(ex.errors)
    ensures ex.BadCredentialsEx? ==> r.error == "Authentication Failed"
    ensures ex.UsernameNotFoundEx? ==> r.error == "User Not Found"
    ensures ex.OtherRuntimeEx? || ex.OtherCheckedEx? ==> r.error == "Internal Server Error"
  {
    var path := StripUri(description);
    match ex
    case ResourceNotFoundEx(m) => ErrorBody(404, "Not Found", m, path)
    case BadRequestEx(m) => ErrorBody(400, "Bad Request", m, path)
    case UnauthorizedEx(m) => ErrorBody(401, "Unauthorized", m, path)
    case InsufficientStockEx(m) => ErrorBody(400, "Insufficient Stock", m, path)
    case ValidationEx(errors) => ValidationBody(400, "Validation Failed", FieldMessages(errors), path)
    case BadCredentialsEx(_) => ErrorBody(401, "Authentication Failed", "Invalid email or password", path)
    case UsernameNotFoundEx(m) => ErrorBody(404, "User Not Found", m, path)
    case OtherRuntimeEx(m) => ErrorBody(500, "Internal Server Error", m, path)
    case OtherCheckedEx(m) => ErrorBody(500, "Internal Server Error", "An unexpected error occurred: " + m, path)
  }

  /** The field → message map, filled in error order so that a later error for a field wins. */
  function FieldMessages(errors: seq<FieldError>): (r: map<string, string>)
    ensures forall f :: f in r <==> exists i :: 0 <= i < |errors| && errors[i].field == f
  {
    if |errors| == 0 then map[]
    else
      var last := errors[|errors| - 1];
      var r := FieldMessages(errors[..|errors| - 1])[last.field := last.message];
      assert forall i :: 0 <= i < |errors| - 1 ==> errors[..|errors| - 1][i] == errors[i];
      r
  }

  /** The message of the last error for `field`, scanning from the end. */
  function LastMessage(errors: seq<FieldError>, field: string): Option<string>
  {
    if |errors| == 0 then None
    else if errors[|errors| - 1].field == field then Some(errors[|errors| - 1].message)
    else LastMessage(errors[..|errors| - 1], field)
  }

  /** The message stored for a field is that of the last error naming it. */
  lemma {:induction false} FieldMessagesLastWins(errors: seq<FieldError>, field: string)
    ensures field in FieldMessages(errors) <==> LastMessage(errors, field).Some?
    ensures field in FieldMessages(errors) ==> FieldMessages(errors)[field] == LastMessage(errors, field).value
  {
    if |errors| > 0 {
      FieldMessagesLastWins(errors[..|errors| - 1], field);
    }
  }

  /** A validation response reports, for each field with an error, the message of its last error. */
  lemma ValidationResponseLastWins(errors: seq<FieldError>, description: string, field: string)
    ensures var r := Handle(ValidationEx(errors), description);
      && (field in r.errors <==> LastMessage(errors, field).Some?)
      && (field in r.errors ==> r.errors[field] == LastMessage(errors, field).value)
  {
    FieldMessagesLastWins(errors, field);
  }

  /** Two errors for one field: the second message is the one reported. */
  lemma LaterErrorOverwrites(field: string, first: string, second: string)
    ensures FieldMessages([FieldError(field, first), FieldError(field, second)]) == map[field := second]
  {
    var errors := [FieldError(field, first), FieldError(field, second)];
    assert errors[..1] == [FieldError(field, first)];
    assert [FieldError(field, first)][..0] == [];
  }

  // ---------------------------------------------------------------------
  // The path
  // ---------------------------------------------------------------------

  /** A description without `"uri="` is reported unchanged. */
  lemma {:induction false} StripUriWithout(s: string)
    requires !HasUri(s)
    ensures StripUri(s) == s
    decreases |s|
  {
    if |s| >= |Uri| {
      assert !UriAt(s, 0);
      forall i: nat | UriAt(s[1..], i)
        ensures UriAt(s, i + 1)
      {
        assert s[1..][i..i + |Uri|] == s[i + 1..i + 1 + |Uri|];
      }
      StripUriWithout(s[1..]);
    }
  }

  /** A description with `"uri="` in it gets shorter. */
  lemma {:induction false} StripUriShortens(s: string, i: nat)
    requires UriAt(s, i)
    ensures |StripUri(s)| < |s|
    decreases |s|
  {
    if s[..|Uri|] != Uri {
      assert s[1..][i - 1..i - 1 + |Uri|] == s[i..i + |Uri|];
      StripUriShortens(s[1..], i - 1);
    }
  }

  /** The path equals the description exactly when the description holds no `"uri="`. */
  lemma StripUriUnchangedIff(s: string)
    ensures StripUri(s) == s <==> !HasUri(s)
  {
    if HasUri(s) {
      var i: nat :| UriAt(s, i);
      StripUriShortens(s, i);
    } else {
      StripUriWithout(s);
    }
  }

  /** One scan is not enough to remove an occurrence that the deletion itself brings together. */
  lemma StripUriNotIdempotent()
    ensures StripUri("uriuri==") == "uri="
    ensures HasUri(StripUri("uriuri=="))
  {
    var s := "uriuri==";
    assert s[..4] != Uri by { assert s[3] != Uri[3]; }
    assert s[1..][..4] != Uri by { assert s[1..][0] != Uri[0]; }
    assert s[2..][..4] != Uri by { assert s[2..][0] != Uri[0]; }
    assert s[3..][..4] == Uri;
    assert s[1..][1..] == s[2..] && s[2..][1..] == s[3..];
    assert s[3..][4..] == "=";
    assert StripUri(s[3..]) == "=";
    assert StripUri(s) == "uri=";
    assert UriAt("uri=", 0);
  }

  // ---------------------------------------------------------------------
  // Service errors
  // ---------------------------------------------------------------------

  /**
   The exception a service error is thrown as. `describe` gives the message of
   the two exceptions whose message text is not part of this model
   (`ResourceNotFoundException`'s formatting and `InsufficientStockException`).
   */
  function Raise(e: Error, describe: Error -> string): (r: Thrown)
    ensures !r.ValidationEx? && !r.BadCredentialsEx? && !r.UsernameNotFoundEx? && !r.OtherCheckedEx?
    ensures r.OtherRuntimeEx? <==> e.IllegalArgument?
    ensures e.ResourceNotFound? || e.InsufficientStock? ==> r.message == describe(e)
    ensures e.BadRequest? || e.Unauthorized? || e.IllegalArgument? ==> r.message == e.message
  {
    match e
    case ResourceNotFound(_) => ResourceNotFoundEx(describe(e))
    case BadRequest(m) => BadRequestEx(m)
    case Unauthorized(m) => UnauthorizedEx(m)
    case InsufficientStock(_, _, _) => InsufficientStockEx(describe(e))
    case IllegalArgument(m) => OtherRuntimeEx(m)
  }

  /**
   The status each service error ends in: missing rows 404, rejected requests
   and stock shortages 400, ownership failures 401, and a taken email 500,
   because `IllegalArgumentException` has no handler of its own.
   */
  lemma ServiceErrorStatus(e: Error, describe: Error -> string, description: string)
    ensures var r := Handle(Raise(e, describe), description);
      && r.ErrorBody?
      && r.status == (match e
          case ResourceNotFound(_) => 404
          case BadRequest(_) => 400
          case Unauthorized(_) => 401
          case InsufficientStock(_, _, _) => 400
          case IllegalArgument(_) => 500)
      && (e.BadRequest? || e.Unauthorized? || e.IllegalArgument? ==> r.message == e.message)
      && (e.InsufficientStock? ==> r.error == "Insufficient Stock")
  {
  }
}

=== FILE: order_service.dfy ===
/**
 Checkout, cancellation and the two status setters of `OrderService`.

 Checkout validates the whole cart before it writes anything, then creates
 the order, decrements stock line by line and empties the cart. The stock
 check is per line, so it only keeps stock non-negative because a cart
 holds at most one line per product (`Domain.UniqueCartLines`).
 */
module OrderService {
  import opened Domain

  /** A cart line whose product exists and has at least the line's quantity in stock. */
  predicate Covered(products: map<Id, Product>, line: CartItem) {
    line.product in products && products[line.product].stock >= line.quantity
  }

  /** What the stock check throws for a line that is not covered. */
  function ShortageError(products: map<Id, Product>, line: CartItem): Error
  {
    if line.product in products then
      InsufficientStock(products[line.product].name, products[line.product].stock, line.quantity)
    else
      ResourceNotFound(ProductRow(line.product))
  }

  /** The validation loop of checkout: the error of the first line that is not covered, if any. */
  function FirstShortage(products: map<Id, Product>, lines: seq<CartItem>): (r: Option<Error>)
    ensures r.None? <==> forall i :: 0 <= i < |lines| ==> Covered(products, lines[i])
    ensures r.Some? ==> exists i :: (0 <= i < |lines| && !Covered(products, lines[i])
      && (forall j :: 0 <= j < i ==> Covered(products, lines[j]))
      && r.value == ShortageError(products, lines[i]))
  {
    if |lines| == 0 then None
    else if !Covered(products, lines[0]) then Some(ShortageError(products, lines[0]))
    else
      var r := FirstShortage(products, lines[1..]);
      assert r.Some? ==> exists i :: (0 <= i < |lines[1..]| && !Covered(products, lines[1..][i])
        && (forall j :: 0 <= j < i ==> Covered(products, lines[1..][j]))
        && r.value == ShortageError(products, lines[1..][i]));
      r
  }

  /** One unit of the decrement loop: take `quantity` units and flag the product out of stock at zero. */
  function Sell(p: Product, quantity: int): (r: Product)
    ensures r.stock == p.stock - quantity
    ensures r.status == (if p.stock == quantity then OutOfStock else p.status)
    ensures r.(stock := p.stock, status := p.status) == p
  {
    var left := p.stock - quantity;
    p.(stock := left, status := if left == 0 then OutOfStock else p.status)
  }

  /** The decrement loop of checkout, one line after the other. */
  function DecrementStock(products: map<Id, Product>, lines: seq<CartItem>): (r: map<Id, Product>)
    ensures r.Keys == products.Keys
    ensures forall id :: id in products ==> r[id].stock == products[id].stock - LineQuantity(lines, id)
  {
    if |lines| == 0 then products
    else
      var line := lines[0];
      var next := if line.product in products then products[line.product := Sell(products[line.product], line.quantity)] else products;
      DecrementStock(next, lines[1..])
  }

  /** How many units of `product` some cart lines ask for in all. */
  function LineQuantity(lines: seq<CartItem>, product: Id): int
  {
    if |lines| == 0 then 0
    else (if lines[0].product == product then lines[0].quantity else 0) + LineQuantity(lines[1..], product)
  }

  predicate DistinctProducts(lines: seq<CartItem>) {
    forall i, j :: 0 <= i < j < |lines| ==> lines[i].product != lines[j].product
  }

  /** The order lines of a checkout: each cart line frozen with the product's name and the line's price snapshot. */
  function OrderLines(products: map<Id, Product>, lines: seq<CartItem>): (r: seq<OrderItem>)
    ensures |r| == |lines|
    ensures forall i :: 0 <= i < |lines| ==>
      && r[i].product == lines[i].product
      && r[i].quantity == lines[i].quantity
      && r[i].price == lines[i].price
      && r[i].subtotal == r[i].price * r[i].quantity
      && (lines[i].product in products ==> r[i].productName == products[lines[i].product].name)
  {
    if |lines| == 0 then []
    else
      var line := lines[0];
      var name := if line.product in products then products[line.product].name else "";
      [OrderItem(line.product, name, line.quantity, line.price, line.price * line.quantity)]
        + OrderLines(products, lines[1..])
  }

  /** Σ subtotal over the lines of an order. */
  function SubtotalSum(items: seq<OrderItem>): Money
  {
    if |items| == 0 then 0 else items[0].subtotal + SubtotalSum(items[1..])
  }

  /** How many units of `product` the lines of an order hold in all. */
  function OrderedQuantity(items: seq<OrderItem>, product: Id): int
  {
    if |items| == 0 then 0
    else (if items[0].product == product then items[0].quantity else 0) + OrderedQuantity(items[1..], product)
  }

  /** A checkout gets past its cart and address lookups to the stock check. */
  predicate ReachesStockCheck(s: Store, userId: Id, addressId: Id) {
    && userId in s.users
    && FindCart(s.carts, userId).Some?
    && |CartLines(s, userId)| > 0
    && FindAddress(s.addresses, addressId).Some?
  }

  /** `OrderService.createOrderFromCart`; the result carries the new store and the new order's id. */
  function CreateOrderFromCart(s: Store, userId: Id, addressId: Id, payment: PaymentMethod, now: int): (r: Result<(Store, Id)>)
    ensures userId !in s.users ==> r == Err(ResourceNotFound(UserRow(userId)))
    ensures userId in s.users && FindCart(s.carts, userId).None? ==> r == Err(ResourceNotFound(CartOfUser(userId)))
    ensures userId in s.users && FindCart(s.carts, userId).Some? && CartLines(s, userId) == [] ==>
      r == Err(BadRequest("Cart is empty"))
    ensures userId in s.users && |CartLines(s, userId)| > 0 && FindAddress(s.addresses, addressId).None? ==>
      r == Err(ResourceNotFound(AddressRow(addressId)))
    ensures ReachesStockCheck(s, userId, addressId) && FirstShortage(s.products, CartLines(s, userId)).Some? ==>
      r == Err(FirstShortage(s.products, CartLines(s, userId)).value)
    ensures r.Ok? <==> (ReachesStockCheck(s, userId, addressId)
      && forall i :: 0 <= i < |CartLines(s, userId)| ==> Covered(s.products, CartLines(s, userId)[i]))
    ensures r.Ok? ==> r.value.0.carts == s.carts && r.value.0.users == s.users
    ensures r.Ok? ==> r.value.0.products.Keys == s.products.Keys
    ensures r.Ok? ==> (r.value.1 == s.nextId && s.nextId in r.value.0.orders
      && r.value.0.orders == s.orders[s.nextId := r.value.0.orders[s.nextId]])
  {
    if userId !in s.users then Err(ResourceNotFound(UserRow(userId)))
    else match FindCart(s.carts, userId)
      case None => Err(ResourceNotFound(CartOfUser(userId)))
      case Some(cart) =>
        var lines := LinesOf(s.cartItems, cart.id);
        if |lines| == 0 then Err(BadRequest("Cart is empty"))
        else match FindAddress(s.addresses, addressId)
          case None => Err(ResourceNotFound(AddressRow(addressId)))
          case Some(k) =>
            match FirstShortage(s.products, lines)
            case Some(e) => Err(e)
            case None =>
              var address := s.addresses[k];
              var order := Order(
                userId, LinesTotal(lines), Pending, PaymentPending, payment,
                address.street, address.city, address.state, address.postalCode, address.country,
                now, None, OrderLines(s.products, lines));
              var s' := s.(
                products := DecrementStock(s.products, lines),
                orders := s.orders[s.nextId := order],
                cartItems := WithoutCart(s.cartItems, cart.id),
                nextId := s.nextId + 1);
              Ok((s', s.nextId))
  }

  /** One unit of the restore loop of cancellation: put the units back and reactivate a sold-out product. */
  function Restock(p: Product, quantity: int): (r: Product)
    ensures r.stock == p.stock + quantity
    ensures p.status == OutOfStock ==> r.status == Active
    ensures p.status != OutOfStock ==> r.status == p.status
    ensures r.(stock := p.stock, status := p.status) == p
  {
    p.(stock := p.stock + quantity, status := if p.status == OutOfStock then Active else p.status)
  }

  /** The restore loop of cancellation, one order line after the other. */
  function RestoreStock(products: map<Id, Product>, items: seq<OrderItem>): (r: map<Id, Product>)
    ensures r.Keys == products.Keys
    ensures forall id :: id in products ==> r[id].stock == products[id].stock + OrderedQuantity(items, id)
    ensures forall id :: id in products ==>
      r[id].(stock := products[id].stock, status := products[id].status) == products[id]
  {
    if |items| == 0 then products
    else
      var item := items[0];
      var next := if item.product in products then products[item.product := Restock(products[item.product], item.quantity)] else products;
      RestoreStock(next, items[1..])
  }

  /**
   The restore loop leaves every product the order names ACTIVE, keeps ACTIVE
   products ACTIVE, and leaves the products the order does not name as they were.
   */
  lemma {:induction false} RestoreStockStatus(products: map<Id, Product>, items: seq<OrderItem>, id: Id)
    requires id in products
    ensures products[id].status == Active ==> RestoreStock(products, items)[id].status == Active
    ensures (exists i :: 0 <= i < |items| && items[i].product == id) ==> RestoreStock(products, items)[id].status == Active
    ensures (forall i :: 0 <= i < |items| ==> items[i].product != id) ==> RestoreStock(products, items)[id] == products[id]
  {
    if |items| > 0 {
      var item := items[0];
      var next := if item.product in products then products[item.product := Restock(products[item.product], item.quantity)] else products;
      var rest := items[1..];
      RestoreStockStatus(next, rest, id);
      if item.product == id {
        assert next[id].status == Active;
      } else {
        assert next[id] == products[id];
        if i :| 0 <= i < |items| && items[i].product == id {
          assert rest[i - 1].product == id;
        } else {
          forall j | 0 <= j < |rest|
            ensures rest[j].product != id
          {
            assert rest[j] == items[j + 1];
          }
        }
      }
    }
  }

  /** `OrderService.cancelOrder`. */
  function CancelOrder(s: Store, orderId: Id): (r: Result<(Store, Order)>)
    ensures orderId !in s.orders ==> r == Err(ResourceNotFound(OrderRow(orderId)))
    ensures orderId in s.orders && s.orders[orderId].status == Delivered ==>
      r == Err(BadRequest("Cannot cancel delivered order"))
    ensures r.Ok? <==> orderId in s.orders && s.orders[orderId].status != Delivered
    ensures r.Ok? ==> r.value.1 == s.orders[orderId].(status := Cancelled)
    ensures r.Ok? ==> r.value.0.orders == s.orders[orderId := r.value.1]
    ensures r.Ok? ==> r.value.0.products.Keys == s.products.Keys
    ensures r.Ok? ==> forall p :: p in s.products ==>
      r.value.0.products[p].stock == s.products[p].stock + OrderedQuantity(s.orders[orderId].items, p)
    ensures r.Ok? ==> forall p, i ::
      (p in s.products && 0 <= i < |s.orders[orderId].items| && s.orders[orderId].items[i].product == p) ==>
      r.value.0.products[p].status == Active
    ensures r.Ok? ==> forall p :: p in s.products && s.products[p].status == Active ==>
      r.value.0.products[p].status == Active
    ensures r.Ok? ==> forall p :: p in s.products ==>
      r.value.0.products[p].(stock := s.products[p].stock, status := s.products[p].status) == s.products[p]
    ensures r.Ok? ==> forall p ::
      (p in s.products && forall i :: 0 <= i < |s.orders[orderId].items| ==> s.orders[orderId].items[i].product != p) ==>
      r.value.0.products[p] == s.products[p]
    ensures r.Ok? ==> r.value.0 == s.(products := r.value.0.products, orders := r.value.0.orders)
  {
    if orderId !in s.orders then Err(ResourceNotFound(OrderRow(orderId)))
    else
      var order := s.orders[orderId];
      if order.status == Delivered then Err(BadRequest("Cannot cancel delivered order"))
      else
        var cancelled := order.(status := Cancelled);
        assert forall p | p in s.products ::
          && (s.products[p].status == Active ==> RestoreStock(s.products, order.items)[p].status == Active)
          && ((exists i :: 0 <= i < |order.items| && order.items[i].product == p) ==> RestoreStock(s.products, order.items)[p].status == Active)
          && ((forall i :: 0 <= i < |order.items| ==> order.items[i].product != p) ==> RestoreStock(s.products, order.items)[p] == s.products[p])
        by {
          forall p | p in s.products {
            RestoreStockStatus(s.products, order.items, p);
          }
        }
        Ok((s.(products := RestoreStock(s.products, order.items), orders := s.orders[orderId := cancelled]), cancelled))
  }

  /** `OrderService.updateOrderStatus`: any status may be set; delivery stamps the time. */
  function UpdateOrderStatus(s: Store, orderId: Id, status: OrderStatus, now: int): (r: Result<(Store, Order)>)
    ensures r.Ok? <==> orderId in s.orders
    ensures r.Err? ==> r.error == ResourceNotFound(OrderRow(orderId))
    ensures r.Ok? ==> r.value.1.status == status
    ensures r.Ok? ==> r.value.1.deliveryDate == (if status == Delivered then Some(now) else s.orders[orderId].deliveryDate)
    ensures r.Ok? ==> r.value.1.(status := s.orders[orderId].status, deliveryDate := s.orders[orderId].deliveryDate) == s.orders[orderId]
    ensures r.Ok? ==> r.value.0 == s.(orders := s.orders[orderId := r.value.1])
  {
    if orderId !in s.orders then Err(ResourceNotFound(OrderRow(orderId)))
    else
      var order := s.orders[orderId];
      var updated := order.(status := status, deliveryDate := if status == Delivered then Some(now) else order.deliveryDate);
      Ok((s.(orders := s.orders[orderId := updated]), updated))
  }

  /** `OrderService.updatePaymentStatus`. */
  function UpdatePaymentStatus(s: Store, orderId: Id, paymentStatus: PaymentStatus): (r: Result<(Store, Order)>)
    ensures r.Ok? <==> orderId in s.orders
    ensures r.Err? ==> r.error == ResourceNotFound(OrderRow(orderId))
    ensures r.Ok? ==> r.value.1 == s.orders[orderId].(paymentStatus := paymentStatus)
    ensures r.Ok? ==> r.value.0 == s.(orders := s.orders[orderId := r.value.1])
  {
    if orderId !in s.orders then Err(ResourceNotFound(OrderRow(orderId)))
    else
      var updated := s.orders[orderId].(paymentStatus := paymentStatus);
      Ok((s.(orders := s.orders[orderId := updated]), updated))
  }

  // ---------------------------------------------------------------------
  // Checkout properties
  // ---------------------------------------------------------------------


  /** With one line per product, each product is sold once: by its line, or not at all. */
  lemma {:induction false} DecrementStockDistinct(products: map<Id, Product>, lines: seq<CartItem>, id: Id)
    requires DistinctProducts(lines)
    requires id in products
    ensures (forall i :: 0 <= i < |lines| ==> lines[i].product != id) ==>
      DecrementStock(products, lines)[id] == products[id]
    ensures forall i :: 0 <= i < |lines| && lines[i].product == id ==>
      DecrementStock(products, lines)[id] == Sell(products[id], lines[i].quantity)
  {
    if |lines| > 0 {
      var line := lines[0];
      var next := if line.product in products then products[line.product := Sell(products[line.product], line.quantity)] else products;
      assert DistinctProducts(lines[1..]) by {
        forall i, j | 0 <= i < j < |lines[1..]|
          ensures lines[1..][i].product != lines[1..][j].product
        {
          assert lines[1..][i] == lines[i + 1] && lines[1..][j] == lines[j + 1];
        }
      }
      DecrementStockDistinct(next, lines[1..], id);
      if line.product == id {
        forall i | 0 <= i < |lines[1..]|
          ensures lines[1..][i].product != id
        {
          assert lines[1..][i] == lines[i + 1];
        }
      } else {
        forall i | 0 <= i < |lines| && lines[i].product == id
          ensures DecrementStock(products, lines)[id] == Sell(products[id], lines[i].quantity)
        {
          assert i > 0 && lines[1..][i - 1] == lines[i];
        }
      }
    }
  }

  /** The order lines carry the cart lines' quantities, product by product. */
  lemma {:induction false} OrderLinesQuantity(products: map<Id, Product>, lines: seq<CartItem>, id: Id)
    ensures OrderedQuantity(OrderLines(products, lines), id) == LineQuantity(lines, id)
  {
    if |lines| > 0 {
      var r := OrderLines(products, lines);
      assert r[1..] == OrderLines(products, lines[1..]);
      OrderLinesQuantity(products, lines[1..], id);
    }
  }

  /** The order lines' subtotals add up to the cart total. */
  lemma {:induction false} OrderLinesTotal(products: map<Id, Product>, lines: seq<CartItem>)
    ensures SubtotalSum(OrderLines(products, lines)) == LinesTotal(lines)
  {
    if |lines| > 0 {
      var r := OrderLines(products, lines);
      assert r[1..] == OrderLines(products, lines[1..]);
      OrderLinesTotal(products, lines[1..]);
    }
  }



  /** The new order: pending, paid on delivery of the chosen method, shipped to the chosen address, priced at Σ price × quantity. */
  lemma CheckoutNewOrder(s: Store, userId: Id, addressId: Id, payment: PaymentMethod, now: int)
    requires CreateOrderFromCart(s, userId, addressId, payment, now).Ok?
    ensures var (s', id) := CreateOrderFromCart(s, userId, addressId, payment, now).value;
      var lines := CartLines(s, userId);
      var address := s.addresses[FindAddress(s.addresses, addressId).value];
      && (id !in s.orders ==> forall o :: o in s.orders ==> o in s'.orders && s'.orders[o] == s.orders[o])
      && var order := s'.orders[id];
      && order.user == userId
      && order.status == Pending
      && order.paymentStatus == PaymentPending
      && order.paymentMethod == payment
      && order.deliveryDate == None
      && order.shippingAddress == address.street
      && order.shippingCity == address.city
      && order.shippingState == address.state
      && order.shippingPostalCode == address.postalCode
      && order.shippingCountry == address.country
      && order.total == LinesTotal(lines)
      && order.total == SubtotalSum(order.items)
      && |order.items| == |lines|
      && forall i :: 0 <= i < |lines| ==>
        order.items[i].product == lines[i].product
        && order.items[i].quantity == lines[i].quantity
        && order.items[i].price == lines[i].price
        && order.items[i].subtotal == lines[i].price * lines[i].quantity
  {
    OrderLinesTotal(s.products, CartLines(s, userId));
  }

  /** Each product loses exactly its line's quantity and is flagged out of stock exactly when it reaches zero; the cart is emptied. */
  lemma CheckoutUpdatesStock(s: Store, userId: Id, addressId: Id, payment: PaymentMethod, now: int)
    requires UniqueCartLines(s.cartItems)
    requires CreateOrderFromCart(s, userId, addressId, payment, now).Ok?
    ensures var s' := CreateOrderFromCart(s, userId, addressId, payment, now).value.0;
      var lines := CartLines(s, userId);
      && CartLines(s', userId) == []
      && (forall id :: id in s.products && (forall i :: 0 <= i < |lines| ==> lines[i].product != id) ==>
            s'.products[id] == s.products[id])
      && (forall id, i :: id in s.products && 0 <= i < |lines| && lines[i].product == id ==>
            && s'.products[id].stock == s.products[id].stock - lines[i].quantity
            && s'.products[id].status == (if s'.products[id].stock == 0 then OutOfStock else s.products[id].status)
            && s'.products[id].(stock := s.products[id].stock, status := s.products[id].status) == s.products[id])
  {
    var s' := CreateOrderFromCart(s, userId, addressId, payment, now).value.0;
    var cart := FindCart(s.carts, userId).value;
    LinesOfDistinctProducts(s.cartItems, cart.id);
    CheckoutLoops(s, userId, addressId, payment, now);
    DecrementStockSells(s.products, CartLines(s, userId));
    WithoutCartEmptiesCart(s.cartItems, cart.id);
    assert CartLines(s', userId) == LinesOf(s'.cartItems, cart.id);
  }

  /** With one line per product, the decrement loop sells each carted product once and leaves the rest alone. */
  lemma DecrementStockSells(products: map<Id, Product>, lines: seq<CartItem>)
    requires DistinctProducts(lines)
    ensures var r := DecrementStock(products, lines);
      && (forall id :: id in products && (forall i :: 0 <= i < |lines| ==> lines[i].product != id) ==>
            r[id] == products[id])
      && (forall id, i :: id in products && 0 <= i < |lines| && lines[i].product == id ==>
            r[id] == Sell(products[id], lines[i].quantity))
  {
    forall id | id in products
      ensures (forall i :: 0 <= i < |lines| ==> lines[i].product != id) ==> DecrementStock(products, lines)[id] == products[id]
      ensures forall i :: 0 <= i < |lines| && lines[i].product == id ==>
        DecrementStock(products, lines)[id] == Sell(products[id], lines[i].quantity)
    {
      DecrementStockDistinct(products, lines, id);
    }
  }

  /** The property checkout exists to keep: with one line per (cart, product), no stock goes negative. */
  lemma CheckoutKeepsStockNonNegative(s: Store, userId: Id, addressId: Id, payment: PaymentMethod, now: int)
    requires UniqueCartLines(s.cartItems)
    requires StocksNonNegative(s.products)
    requires CreateOrderFromCart(s, userId, addressId, payment, now).Ok?
    ensures StocksNonNegative(CreateOrderFromCart(s, userId, addressId, payment, now).value.0.products)
  {
    var s' := CreateOrderFromCart(s, userId, addressId, payment, now).value.0;
    var lines := CartLines(s, userId);
    CheckoutUpdatesStock(s, userId, addressId, payment, now);
    forall id | id in s'.products
      ensures s'.products[id].stock >= 0
    {
      if i :| 0 <= i < |lines| && lines[i].product == id {
        assert Covered(s.products, lines[i]);
      }
    }
  }

  /**
   What a successful checkout does to the store, as far as the store
   invariant is concerned: only products, orders, cart lines and the id
   counter change; one order is added under the old counter; cart lines are
   only removed and stay unique; stock stays non-negative; and every order
   line takes its quantity from a cart line.
   */
  predicate CheckoutEffect(s: Store, s': Store) {
    && s' == s.(products := s'.products, orders := s'.orders, cartItems := s'.cartItems, nextId := s.nextId + 1)
    && s.nextId in s'.orders && s'.orders == s.orders[s.nextId := s'.orders[s.nextId]]
    && (forall x :: x in s'.cartItems ==> x in s.cartItems)
    && UniqueCartLines(s'.cartItems) && UniqueItemIds(s'.cartItems)
    && StocksNonNegative(s'.products)
    && (forall i :: 0 <= i < |s'.orders[s.nextId].items| ==>
          exists x :: x in s.cartItems && x.quantity == s'.orders[s.nextId].items[i].quantity)
  }

  /** A successful checkout, from a store with unique cart lines and non-negative stock, has `CheckoutEffect`. */
  lemma CheckoutFrame(s: Store, userId: Id, addressId: Id, payment: PaymentMethod, now: int)
    requires UniqueCartLines(s.cartItems) && UniqueItemIds(s.cartItems) && StocksNonNegative(s.products)
    requires CreateOrderFromCart(s, userId, addressId, payment, now).Ok?
    ensures CheckoutEffect(s, CreateOrderFromCart(s, userId, addressId, payment, now).value.0)
  {
    var s' := CreateOrderFromCart(s, userId, addressId, payment, now).value.0;
    var cart := FindCart(s.carts, userId).value;
    var lines := LinesOf(s.cartItems, cart.id);
    assert s' == s.(products := s'.products, orders := s'.orders,
                    cartItems := WithoutCart(s.cartItems, cart.id), nextId := s.nextId + 1);
    WithoutCartKeepsUnique(s.cartItems, cart.id);
    WithoutCartKeepsIds(s.cartItems, cart.id);
    CheckoutKeepsStockNonNegative(s, userId, addressId, payment, now);
    CheckoutNewOrder(s, userId, addressId, payment, now);
    var order := s'.orders[s.nextId];
    forall i | 0 <= i < |order.items|
      ensures exists x :: x in s.cartItems && x.quantity == order.items[i].quantity
    {
      assert lines[i] in lines;
    }
  }

  /** Without the one-line-per-product invariant the per-line check lets stock go negative. */
  lemma DuplicateLinesOversell()
    ensures var p := Product("vase", "", 100, 5, "", Active, None, None);
      var lines := [CartItem(1, 1, 7, 3, 100), CartItem(2, 1, 7, 3, 100)];
      && FirstShortage(map[7 := p], lines).None?
      && DecrementStock(map[7 := p], lines)[7].stock == -1
  {
    var p := Product("vase", "", 100, 5, "", Active, None, None);
    var lines := [CartItem(1, 1, 7, 3, 100), CartItem(2, 1, 7, 3, 100)];
    assert Covered(map[7 := p], lines[0]) && Covered(map[7 := p], lines[1]);
  }

  /** The products, cart lines and new order lines after a checkout, as its loops and delete compute them. */
  lemma CheckoutLoops(s: Store, userId: Id, addressId: Id, payment: PaymentMethod, now: int)
    requires CreateOrderFromCart(s, userId, addressId, payment, now).Ok?
    ensures var (s1, id) := CreateOrderFromCart(s, userId, addressId, payment, now).value;
      && s1.products == DecrementStock(s.products, CartLines(s, userId))
      && s1.cartItems == WithoutCart(s.cartItems, FindCart(s.carts, userId).value.id)
      && id in s1.orders && s1.orders[id].status == Pending
      && s1.orders[id].items == OrderLines(s.products, CartLines(s, userId))
  {
  }

  /** Cancelling the order a checkout created puts every product's stock back where it was. */
  lemma CheckoutThenCancelRestoresStock(s: Store, userId: Id, addressId: Id, payment: PaymentMethod, now: int)
    requires CreateOrderFromCart(s, userId, addressId, payment, now).Ok?
    ensures var (s1, id) := CreateOrderFromCart(s, userId, addressId, payment, now).value;
      && CancelOrder(s1, id).Ok?
      && var s2 := CancelOrder(s1, id).value.0;
      && s2.products.Keys == s.products.Keys
      && forall p :: p in s.products ==> s2.products[p].stock == s.products[p].stock
  {
    var (s1, id) := CreateOrderFromCart(s, userId, addressId, payment, now).value;
    var lines := CartLines(s, userId);
    CheckoutLoops(s, userId, addressId, payment, now);
    var items := s1.orders[id].items;
    var c := CancelOrder(s1, id);
    assert c.Ok?;
    var s2 := c.value.0;
    forall p | p in s.products
      ensures s2.products[p].stock == s.products[p].stock
    {
      assert s1.products[p].stock == s.products[p].stock - LineQuantity(lines, p);
      assert s2.products[p].stock == s1.products[p].stock + OrderedQuantity(items, p);
      OrderLinesQuantity(s.products, lines, p);
    }
  }

  /** Cancellation accepts an already cancelled order and restores its stock a second time. */
  lemma CancelTwiceRestoresTwice(s: Store, orderId: Id, p: Id)
    requires CancelOrder(s, orderId).Ok?
    requires p in s.products
    ensures var s1 := CancelOrder(s, orderId).value.0;
      && CancelOrder(s1, orderId).Ok?
      && CancelOrder(s1, orderId).value.0.products[p].stock
         == s.products[p].stock + 2 * OrderedQuantity(s.orders[orderId].items, p)
  {
    var s1 := CancelOrder(s, orderId).value.0;
  }

  /** With non-negative order quantities, cancellation keeps stock non-negative. */
  lemma CancelKeepsStockNonNegative(s: Store, orderId: Id)
    requires StocksNonNegative(s.products)
    requires orderId in s.orders
    requires forall i :: 0 <= i < |s.orders[orderId].items| ==> s.orders[orderId].items[i].quantity >= 0
    requires CancelOrder(s, orderId).Ok?
    ensures StocksNonNegative(CancelOrder(s, orderId).value.0.products)
  {
    var items := s.orders[orderId].items;
    var ps := CancelOrder(s, orderId).value.0.products;
    forall p | p in ps
      ensures ps[p].stock >= 0
    {
      OrderedQuantityNonNegative(items, p);
    }
  }

  lemma {:induction false} OrderedQuantityNonNegative(items: seq<OrderItem>, p: Id)
    requires forall i :: 0 <= i < |items| ==> items[i].quantity >= 0
    ensures OrderedQuantity(items, p) >= 0
  {
    if |items| > 0 {
      OrderedQuantityNonNegative(items[1..], p);
    }
  }

  /** Status updates are unchecked: a delivered order can be put back to any status, after which cancelling it succeeds. */
  lemma DeliveredOrderCanBeReopened(s: Store, orderId: Id, now: int, other: OrderStatus)
    requires orderId in s.orders
    requires other != Delivered
    ensures var s1 := UpdateOrderStatus(s, orderId, Delivered, now).value.0;
      && CancelOrder(s1, orderId) == Err(BadRequest("Cannot cancel delivered order"))
      && var s2 := UpdateOrderStatus(s1, orderId, other, now).value.0;
      && CancelOrder(s2, orderId).Ok?
      && s2.orders[orderId].deliveryDate == Some(now)
  {
  }

  /** Setting the status to CANCELLED directly restores no stock, unlike `CancelOrder`. */
  lemma StatusUpdateLeavesStock(s: Store, orderId: Id, status: OrderStatus, now: int)
    requires orderId in s.orders
    ensures UpdateOrderStatus(s, orderId, status, now).value.0.products == s.products
  {
  }
}

=== FILE: product_service.dfy ===
/**
 The read-only part of `ProductService`: the stock predicate, the stock query,
 the flattening of a product into its response record, and the listings,
 which only ever show ACTIVE products.
 */
module ProductService {
  import opened Domain
  import CartService
  import OrderService

  /** `ProductResponse`: a product flattened for the client; `None` stands for Java `null`. */
  datatype ProductDto = ProductDto(
    id: Id,
    name: string,
    description: string,
    price: Money,
    stockQuantity: int,
    imageUrl: string,
    status: string,
    categoryId: Option<Id>,
    categoryName: Option<string>,
    artisanId: Option<Id>,
    artisanName: Option<string>)

  /** `ProductStatus.name()`. */
  function StatusName(status: ProductStatus): string {
    match status
    case Active => "ACTIVE"
    case OutOfStock => "OUT_OF_STOCK"
  }

  /** `ProductStatus.valueOf`, with `None` where Java throws. */
  function ParseStatus(name: string): Option<ProductStatus> {
    if name == "ACTIVE" then Some(Active)
    else if name == "OUT_OF_STOCK" then Some(OutOfStock)
    else None
  }

  /** Rendering a status by name loses nothing: parsing the name gives the status back. */
  lemma StatusNameRoundTrip(status: ProductStatus, name: string)
    ensures ParseStatus(StatusName(status)) == Some(status)
    ensures ParseStatus(name) == Some(status) ==> StatusName(status) == name
  {
    assert "ACTIVE" != "OUT_OF_STOCK" by {
      assert "ACTIVE"[0] != "OUT_OF_STOCK"[0];
    }
  }

  /** `ProductService.convertToDto`: copies the product and resolves its category and artisan. */
  function ConvertToDto(s: Store, id: Id, p: Product): (r: ProductDto)
    ensures r.id == id && r.name == p.name && r.description == p.description && r.price == p.price
    ensures r.stockQuantity == p.stock && r.imageUrl == p.imageUrl
    ensures ParseStatus(r.status) == Some(p.status)
    ensures r.categoryId == p.category
    ensures r.categoryName.Some? <==> p.category.Some? && p.category.value in s.categories
    ensures r.categoryName.Some? ==> r.categoryName.value == s.categories[p.category.value].name
    ensures r.artisanId == p.artisan
    ensures r.artisanName.Some? <==> p.artisan.Some? && p.artisan.value in s.users
    ensures r.artisanName.Some? ==> (
      var u := s.users[p.artisan.value];
      && |r.artisanName.value| == |u.firstName| + 1 + |u.lastName|
      && r.artisanName.value[..|u.firstName|] == u.firstName
      && r.artisanName.value[|u.firstName|..|u.firstName| + 1] == " "
      && r.artisanName.value[|u.firstName| + 1..] == u.lastName)
  {
    StatusNameRoundTrip(p.status, "");
    var categoryName := match p.category
      case Some(c) => if c in s.categories then Some(s.categories[c].name) else None
      case None => None;
    var artisanName := match p.artisan
      case Some(a) => if a in s.users then Some(ArtisanName(s.users[a])) else None
      case None => None;
    ProductDto(id, p.name, p.description, p.price, p.stock, p.imageUrl, StatusName(p.status),
      p.category, categoryName, p.artisan, artisanName)
  }

  /** First name, a single space, last name. */
  function ArtisanName(u: User): (r: string)
    ensures |r| == |u.firstName| + 1 + |u.lastName|
    ensures r[..|u.firstName|] == u.firstName && r[|u.firstName|] == ' ' && r[|u.firstName| + 1..] == u.lastName
  {
    u.firstName + " " + u.lastName
  }

  /** `ProductService.isProductInStock`. */
  function IsProductInStock(s: Store, productId: Id, quantity: int): (r: Result<bool>)
    ensures r.Err? <==> productId !in s.products
    ensures r.Err? ==> r.error == ResourceNotFound(ProductRow(productId))
    ensures r.Ok? ==> (r.value <==> s.products[productId].status == Active && s.products[productId].stock >= quantity)
  {
    if productId !in s.products then Err(ResourceNotFound(ProductRow(productId)))
    else
      var p := s.products[productId];
      Ok(p.status == Active && p.stock >= quantity)
  }

  /** `ProductService.getProductStock`. */
  function GetProductStock(s: Store, productId: Id): (r: Result<int>)
    ensures r.Err? <==> productId !in s.products
    ensures r.Err? ==> r.error == ResourceNotFound(ProductRow(productId))
    ensures r.Ok? ==> r.value == s.products[productId].stock
  {
    if productId !in s.products then Err(ResourceNotFound(ProductRow(productId)))
    else Ok(s.products[productId].stock)
  }

  /** `ProductService.getProductById`. */
  function GetProductById(s: Store, productId: Id): (r: Option<ProductDto>)
    ensures r.Some? <==> productId in s.products
    ensures r.Some? ==> r.value.id == productId && r.value.stockQuantity == s.products[productId].stock
  {
    if productId in s.products then Some(ConvertToDto(s, productId, s.products[productId])) else None
  }

  /** `ProductService.getAllActiveProducts`, unpaginated: every ACTIVE product, by id. */
  function GetAllActiveProducts(s: Store): (r: map<Id, ProductDto>)
    ensures forall id :: id in r <==> id in s.products && s.products[id].status == Active
    ensures forall id :: id in r ==> r[id].status == "ACTIVE" && r[id].id == id
  {
    map id | id in s.products && s.products[id].status == Active :: ConvertToDto(s, id, s.products[id])
  }

  /**
   `ProductService.searchProducts`, unpaginated; `matches` stands for the
   case-insensitive substring test on name or description.
   */
  function SearchProducts(s: Store, matches: Product -> bool): (r: map<Id, ProductDto>)
    ensures forall id :: id in r <==> id in s.products && s.products[id].status == Active && matches(s.products[id])
    ensures forall id :: id in r ==> r[id].status == "ACTIVE"
  {
    map id | id in s.products && s.products[id].status == Active && matches(s.products[id]) ::
      ConvertToDto(s, id, s.products[id])
  }

  /** `ProductService.getProductsByCategory`, unpaginated: the category's ACTIVE products. */
  function GetProductsByCategory(s: Store, categoryId: Id): (r: map<Id, Product>)
    ensures forall id :: id in r <==> (id in s.products && s.products[id].status == Active
      && s.products[id].category == Some(categoryId))
    ensures forall id :: id in r ==> r[id] == s.products[id]
  {
    map id | id in s.products && s.products[id].status == Active && s.products[id].category == Some(categoryId) ::
      s.products[id]
  }

  // ---------------------------------------------------------------------
  // Properties
  // ---------------------------------------------------------------------

  /** Every search result is also in the full listing, with the same record. */
  lemma SearchWithinListing(s: Store, matches: Product -> bool)
    ensures var found := SearchProducts(s, matches);
      var all := GetAllActiveProducts(s);
      forall id :: id in found ==> id in all && found[id] == all[id]
  {
  }

  /**
   For a product not yet in the user's cart, `isProductInStock` answers exactly
   whether `addItemToCart` accepts that quantity.
   */
  lemma InStockIffAddAccepted(s: Store, userId: Id, productId: Id, quantity: int)
    requires productId in s.products
    requires FindCart(s.carts, userId).Some?
    requires FindLine(s.cartItems, FindCart(s.carts, userId).value.id, productId).None?
    ensures CartService.AddItemToCart(s, userId, productId, quantity).Ok? <==>
      IsProductInStock(s, productId, quantity) == Ok(true)
  {
  }

  /** A product that checkout sells out drops out of the ACTIVE listing. */
  lemma SoldOutLeavesListing(s: Store, userId: Id, addressId: Id, payment: PaymentMethod, now: int, productId: Id)
    requires UniqueCartLines(s.cartItems)
    requires OrderService.CreateOrderFromCart(s, userId, addressId, payment, now).Ok?
    requires productId in s.products
    requires var s' := OrderService.CreateOrderFromCart(s, userId, addressId, payment, now).value.0;
      s'.products[productId].stock == 0 && s.products[productId].stock != 0
    ensures var s' := OrderService.CreateOrderFromCart(s, userId, addressId, payment, now).value.0;
      productId !in GetAllActiveProducts(s')
  {
    OrderService.CheckoutUpdatesStock(s, userId, addressId, payment, now);
  }
}

=== FILE: shop.dfy ===
/**
 The services together: every operation as one step on the shared store, and
 the store invariant that every successful step preserves.

 Failed steps roll back, so a run of requests is the successive application
 of the successful ones.
 */
module Shop {
  import opened Domain
  import OrderService
  import CartService
  import WishlistService
  import UserService
  import AuthService

  /** A call of `OrderService`. */
  datatype OrderOp =
    | Checkout(userId: Id, addressId: Id, payment: PaymentMethod, now: int)
    | Cancel(orderId: Id)
    | SetOrderStatus(orderId: Id, status: OrderStatus, now: int)
    | SetPaymentStatus(orderId: Id, paymentStatus: PaymentStatus)

  /** A call of `CartService`. */
  datatype CartOp =
    | OpenCart(userId: Id)
    | AddItem(userId: Id, productId: Id, quantity: int)
    | UpdateItem(cartItemId: Id, quantity: int, userId: Id)
    | RemoveItem(cartItemId: Id, userId: Id)
    | EmptyCart(userId: Id)

  /** A call of `WishlistService`. */
  datatype WishOp =
    | AddWish(userId: Id, productId: Id)
    | RemoveWish(userId: Id, productId: Id)
    | ClearWishes(userId: Id)

  /** A call of `UserService` or `AuthService`. */
  datatype AccountOp =
    | UpdateProfile(userId: Id, profile: User)
    | NewAddress(userId: Id, address: Address)
    | EditAddress(addressId: Id, changes: Address)
    | DropAddress(addressId: Id)
    | SignUp(request: AuthService.RegisterRequest)

  /** One service call. */
  datatype Op =
    | OrderCall(orderOp: OrderOp)
    | CartCall(cartOp: CartOp)
    | WishCall(wishOp: WishOp)
    | AccountCall(accountOp: AccountOp)

  /**
   Quantities in cart requests are not negative. The services do not check
   this themselves; the request records they receive are validated before.
   */
  predicate WellFormed(op: Op) {
    match op
    case CartCall(AddItem(_, _, q)) => q >= 0
    case CartCall(UpdateItem(_, q, _)) => q >= 0
    case _ => true
  }

  /** Every cart line and every order line holds a non-negative quantity. */
  predicate NonNegativeQuantities(s: Store) {
    && (forall x :: x in s.cartItems ==> x.quantity >= 0)
    && (forall o, i :: o in s.orders && 0 <= i < |s.orders[o].items| ==> s.orders[o].items[i].quantity >= 0)
  }

  predicate Invariant(s: Store) {
    Valid(s) && NonNegativeQuantities(s)
  }

  function ApplyOrder(s: Store, op: OrderOp): Result<Store>
  {
    match op
    case Checkout(u, a, pm, now) =>
      var (s', _) :- OrderService.CreateOrderFromCart(s, u, a, pm, now); Ok(s')
    case Cancel(o) =>
      var (s', _) :- OrderService.CancelOrder(s, o); Ok(s')
    case SetOrderStatus(o, st, now) =>
      var (s', _) :- OrderService.UpdateOrderStatus(s, o, st, now); Ok(s')
    case SetPaymentStatus(o, ps) =>
      var (s', _) :- OrderService.UpdatePaymentStatus(s, o, ps); Ok(s')
  }

  function ApplyCart(s: Store, op: CartOp): Result<Store>
  {
    match op
    case OpenCart(u) =>
      var (s', _) :- CartService.GetOrCreateCart(s, u); Ok(s')
    case AddItem(u, p, q) =>
      var (s', _) :- CartService.AddItemToCart(s, u, p, q); Ok(s')
    case UpdateItem(ci, q, u) =>
      var (s', _) :- CartService.UpdateCartItemQuantity(s, ci, q, u); Ok(s')
    case RemoveItem(ci, u) => CartService.RemoveItemFromCart(s, ci, u)
    case EmptyCart(u) => CartService.ClearCart(s, u)
  }

  function ApplyWish(s: Store, op: WishOp): Result<Store>
  {
    match op
    case AddWish(u, p) =>
      var (s', _) :- WishlistService.AddToWishlist(s, u, p); Ok(s')
    case RemoveWish(u, p) => WishlistService.RemoveFromWishlist(s, u, p)
    case ClearWishes(u) => Ok(WishlistService.ClearWishlist(s, u))
  }

  function ApplyAccount(s: Store, op: AccountOp): Result<Store>
  {
    match op
    case UpdateProfile(u, d) =>
      var (s', _) :- UserService.UpdateUserProfile(s, u, d); Ok(s')
    case NewAddress(u, a) =>
      var (s', _) :- UserService.AddAddress(s, u, a); Ok(s')
    case EditAddress(a, d) =>
      var (s', _) :- UserService.UpdateAddress(s, a, d); Ok(s')
    case DropAddress(a) => Ok(UserService.DeleteAddress(s, a))
    case SignUp(req) =>
      var (s', _) :- AuthService.Register(s, req, AuthService.PlainText); Ok(s')
  }

  /** The store after a successful call; a failed call leaves its error and no store. */
  function Apply(s: Store, op: Op): Result<Store>
  {
    match op
    case OrderCall(o) => ApplyOrder(s, o)
    case CartCall(c) => ApplyCart(s, c)
    case WishCall(w) => ApplyWish(s, w)
    case AccountCall(a) => ApplyAccount(s, a)
  }

  /** A run of calls: failed calls are rolled back and the run goes on. */
  function Run(s: Store, ops: seq<Op>): Store
    decreases |ops|
  {
    if |ops| == 0 then s
    else
      var r := Apply(s, ops[0]);
      Run(if r.Ok? then r.value else s, ops[1..])
  }

  // ---------------------------------------------------------------------
  // Each operation preserves the invariant
  // ---------------------------------------------------------------------

  /** A checkout-shaped step: one new order, fewer cart lines, stocks still non-negative. */
  lemma CheckoutStep(s: Store, s': Store)
    requires Invariant(s)
    requires OrderService.CheckoutEffect(s, s')
    ensures Invariant(s')
  {
  }

  lemma CheckoutKeepsInvariant(s: Store, u: Id, a: Id, pm: PaymentMethod, now: int)
    requires Invariant(s)
    requires OrderService.CreateOrderFromCart(s, u, a, pm, now).Ok?
    ensures Invariant(OrderService.CreateOrderFromCart(s, u, a, pm, now).value.0)
  {
    OrderService.CheckoutFrame(s, u, a, pm, now);
    CheckoutStep(s, OrderService.CreateOrderFromCart(s, u, a, pm, now).value.0);
  }

  lemma CancelKeepsInvariant(s: Store, o: Id)
    requires Invariant(s)
    requires OrderService.CancelOrder(s, o).Ok?
    ensures Invariant(OrderService.CancelOrder(s, o).value.0)
  {
    OrderService.CancelKeepsStockNonNegative(s, o);
  }

  lemma OpenCartKeepsInvariant(s: Store, u: Id)
    requires Invariant(s)
    requires CartService.GetOrCreateCart(s, u).Ok?
    ensures Invariant(CartService.GetOrCreateCart(s, u).value.0)
  {
    CartService.GetOrCreateCartKeepsCartIds(s, u);
    CartService.GetOrCreateCartKeepsOneCartPerUser(s, u);
  }

  /** A step that only touches carts, cart lines and `nextId` keeps the invariant when those keep theirs. */
  lemma CartStep(s: Store, s': Store)
    requires Invariant(s)
    requires s' == s.(carts := s'.carts, cartItems := s'.cartItems, nextId := s'.nextId)
    requires s.nextId <= s'.nextId
    requires UniqueCartLines(s'.cartItems) && UniqueItemIds(s'.cartItems)
    requires UniqueCartIds(s'.carts) && OneCartPerUser(s'.carts)
    requires forall c :: c in s'.carts ==> c.id < s'.nextId && c.user < s'.nextId
    requires forall x :: x in s'.cartItems ==> x.id < s'.nextId && x.cart < s'.nextId && x.quantity >= 0
    ensures Invariant(s')
  {
  }

  lemma AddItemKeepsInvariant(s: Store, u: Id, p: Id, q: int)
    requires Invariant(s) && q >= 0
    requires CartService.AddItemToCart(s, u, p, q).Ok?
    ensures Invariant(CartService.AddItemToCart(s, u, p, q).value.0)
  {
    CartService.AddItemKeepsUniqueLines(s, u, p, q);
    CartService.AddItemFrame(s, u, p, q);
    CartService.AddItemLinesBounded(s, u, p, q);
    CartStep(s, CartService.AddItemToCart(s, u, p, q).value.0);
  }

  lemma UpdateItemKeepsInvariant(s: Store, ci: Id, q: int, u: Id)
    requires Invariant(s) && q >= 0
    requires CartService.UpdateCartItemQuantity(s, ci, q, u).Ok?
    ensures Invariant(CartService.UpdateCartItemQuantity(s, ci, q, u).value.0)
  {
    var i := FindItem(s.cartItems, ci).value;
    var item := CartService.UpdateCartItemQuantity(s, ci, q, u).value.1;
    var items := s.cartItems[i := item];
    CartService.UpdateQuantityEffects(s, ci, q, u);
    forall x | x in items
      ensures x.id < s.nextId && x.cart < s.nextId && x.quantity >= 0
    {
      var j :| 0 <= j < |items| && items[j] == x;
      assert x.id == s.cartItems[j].id && x.cart == s.cartItems[j].cart;
      assert s.cartItems[j] in s.cartItems;
    }
    SameIdsKeepUnique(s.cartItems, items);
    CartStep(s, s.(cartItems := items));
  }

  lemma RemoveItemKeepsInvariant(s: Store, ci: Id, u: Id)
    requires Invariant(s)
    requires CartService.RemoveItemFromCart(s, ci, u).Ok?
    ensures Invariant(CartService.RemoveItemFromCart(s, ci, u).value)
  {
    CartService.RemoveAndClearKeepUniqueLines(s, ci, u);
    CartStep(s, CartService.RemoveItemFromCart(s, ci, u).value);
  }

  lemma EmptyCartKeepsInvariant(s: Store, u: Id)
    requires Invariant(s)
    requires CartService.ClearCart(s, u).Ok?
    ensures Invariant(CartService.ClearCart(s, u).value)
  {
    CartService.RemoveAndClearKeepUniqueLines(s, 0, u);
    CartStep(s, CartService.ClearCart(s, u).value);
  }

  lemma AddWishKeepsInvariant(s: Store, u: Id, p: Id)
    requires Invariant(s)
    requires WishlistService.AddToWishlist(s, u, p).Ok?
    ensures Invariant(WishlistService.AddToWishlist(s, u, p).value.0)
  {
    WishlistService.AddToWishlistEffects(s, u, p);
  }

  lemma RemoveWishKeepsInvariant(s: Store, u: Id, p: Id)
    requires Invariant(s)
    requires WishlistService.RemoveFromWishlist(s, u, p).Ok?
    ensures Invariant(WishlistService.RemoveFromWishlist(s, u, p).value)
  {
    WishlistService.RemoveFromWishlistEffects(s, u, p);
  }

  lemma ClearWishesKeepsInvariant(s: Store, u: Id)
    requires Invariant(s)
    ensures Invariant(WishlistService.ClearWishlist(s, u))
  {
    WishlistService.WithoutUserKeepsUnique(s.wishlist, u);
  }

  lemma UpdateProfileKeepsInvariant(s: Store, u: Id, d: User)
    requires Invariant(s)
    requires UserService.UpdateUserProfile(s, u, d).Ok?
    ensures Invariant(UserService.UpdateUserProfile(s, u, d).value.0)
  {
    UserService.UpdateProfileKeepsUniqueEmails(s, u, d);
  }

  lemma NewAddressKeepsInvariant(s: Store, u: Id, a: Address)
    requires Invariant(s)
    requires UserService.AddAddress(s, u, a).Ok?
    ensures Invariant(UserService.AddAddress(s, u, a).value.0)
  {
    UserService.AddAddressKeepsOneDefault(s, u, a);
  }

  lemma EditAddressKeepsInvariant(s: Store, a: Id, d: Address)
    requires Invariant(s)
    requires UserService.UpdateAddress(s, a, d).Ok?
    ensures Invariant(UserService.UpdateAddress(s, a, d).value.0)
  {
    UserService.UpdateAddressKeepsOneDefault(s, a, d);
  }

  lemma DropAddressKeepsInvariant(s: Store, a: Id)
    requires Invariant(s)
    ensures Invariant(UserService.DeleteAddress(s, a))
  {
    UserService.DeleteAddressKeepsOneDefault(s.addresses, a);
  }

  lemma SignUpKeepsInvariant(s: Store, req: AuthService.RegisterRequest)
    requires Invariant(s)
    requires AuthService.Register(s, req, AuthService.PlainText).Ok?
    ensures Invariant(AuthService.Register(s, req, AuthService.PlainText).value.0)
  {
    AuthService.RegisterKeepsInvariants(s, req, AuthService.PlainText);
  }

  lemma OrderOpKeepsInvariant(s: Store, op: OrderOp)
    requires Invariant(s)
    requires ApplyOrder(s, op).Ok?
    ensures Invariant(ApplyOrder(s, op).value)
  {
    match op
    case Checkout(u, a, pm, now) => CheckoutKeepsInvariant(s, u, a, pm, now);
    case Cancel(o) => CancelKeepsInvariant(s, o);
    case SetOrderStatus(_, _, _) =>
    case SetPaymentStatus(_, _) =>
  }

  lemma CartOpKeepsInvariant(s: Store, op: CartOp)
    requires Invariant(s) && WellFormed(CartCall(op))
    requires ApplyCart(s, op).Ok?
    ensures Invariant(ApplyCart(s, op).value)
  {
    match op
    case OpenCart(u) => OpenCartKeepsInvariant(s, u);
    case AddItem(u, p, q) => AddItemKeepsInvariant(s, u, p, q);
    case UpdateItem(ci, q, u) => UpdateItemKeepsInvariant(s, ci, q, u);
    case RemoveItem(ci, u) => RemoveItemKeepsInvariant(s, ci, u);
    case EmptyCart(u) => EmptyCartKeepsInvariant(s, u);
  }

  lemma WishOpKeepsInvariant(s: Store, op: WishOp)
    requires Invariant(s)
    requires ApplyWish(s, op).Ok?
    ensures Invariant(ApplyWish(s, op).value)
  {
    match op
    case AddWish(u, p) => AddWishKeepsInvariant(s, u, p);
    case RemoveWish(u, p) => RemoveWishKeepsInvariant(s, u, p);
    case ClearWishes(u) => ClearWishesKeepsInvariant(s, u);
  }

  lemma AccountOpKeepsInvariant(s: Store, op: AccountOp)
    requires Invariant(s)
    requires ApplyAccount(s, op).Ok?
    ensures Invariant(ApplyAccount(s, op).value)
  {
    match op
    case UpdateProfile(u, d) => UpdateProfileKeepsInvariant(s, u, d);
    case NewAddress(u, a) => NewAddressKeepsInvariant(s, u, a);
    case EditAddress(a, d) => EditAddressKeepsInvariant(s, a, d);
    case DropAddress(a) => DropAddressKeepsInvariant(s, a);
    case SignUp(req) => SignUpKeepsInvariant(s, req);
  }

  /** Every successful well-formed call preserves the store invariant. */
  lemma ApplyKeepsInvariant(s: Store, op: Op)
    requires Invariant(s) && WellFormed(op)
    requires Apply(s, op).Ok?
    ensures Invariant(Apply(s, op).value)
  {
    match op
    case OrderCall(o) => OrderOpKeepsInvariant(s, o);
    case CartCall(c) => CartOpKeepsInvariant(s, c);
    case WishCall(w) => WishOpKeepsInvariant(s, w);
    case AccountCall(a) => AccountOpKeepsInvariant(s, a);
  }

  /**
   From an invariant store, no run of well-formed calls ever makes a stock
   negative, a second line for one product in a cart, a second cart or
   default address for a user, a duplicate wishlist pair or a duplicate email.
   */
  lemma {:induction false} RunKeepsInvariant(s: Store, ops: seq<Op>)
    requires Invariant(s)
    requires forall i :: 0 <= i < |ops| ==> WellFormed(ops[i])
    ensures Invariant(Run(s, ops))
    decreases |ops|
  {
    if |ops| > 0 {
      if Apply(s, ops[0]).Ok? {
        ApplyKeepsInvariant(s, ops[0]);
      }
      var next := if Apply(s, ops[0]).Ok? then Apply(s, ops[0]).value else s;
      assert forall i :: 0 <= i < |ops[1..]| ==> ops[1..][i] == ops[i + 1];
      RunKeepsInvariant(next, ops[1..]);
    }
  }

  /** The empty store satisfies the invariant, so runs from it stay within it. */
  lemma EmptyStoreInvariant()
    ensures Invariant(Store(map[], map[], map[], [], [], map[], [], [], 0))
  {
  }
}

=== FILE: user_service.dfy ===
/**
 `UserService`: profile edits and the address book, whose invariant is that
 each user has at most one default address.
 */
module UserService {
  import opened Domain

  predicate IsDefaultOf(a: Address, user: Id) {
    a.user == user && a.isDefault
  }

  /** `UserService.updateUserProfile`: copies first name, last name and phone, nothing else. */
  function UpdateUserProfile(s: Store, userId: Id, details: User): (r: Result<(Store, User)>)
    ensures r.Err? <==> userId !in s.users
    ensures r.Err? ==> r.error == ResourceNotFound(UserRow(userId))
    ensures r.Ok? ==> (
      var (s', u) := r.value;
      var old_ := s.users[userId];
      && s'.users == s.users[userId := u]
      && u.firstName == details.firstName && u.lastName == details.lastName && u.phone == details.phone
      && u.email == old_.email && u.password == old_.password && u.role == old_.role && u.isActive == old_.isActive
      && s' == s.(users := s'.users))
  {
    if userId !in s.users then Err(ResourceNotFound(UserRow(userId)))
    else
      var u := s.users[userId].(firstName := details.firstName, lastName := details.lastName, phone := details.phone);
      Ok((s.(users := s.users[userId := u]), u))
  }

  /** `UserService.getUserAddresses`: the user's addresses, in table order. */
  function GetUserAddresses(s: Store, userId: Id): (r: seq<Address>)
    ensures forall a :: a in r <==> a in s.addresses && a.user == userId
  {
    AddressesOf(s.addresses, userId)
  }

  function AddressesOf(addresses: seq<Address>, userId: Id): (r: seq<Address>)
    ensures forall a :: a in r <==> a in addresses && a.user == userId
  {
    if |addresses| == 0 then []
    else if addresses[0].user == userId then [addresses[0]] + AddressesOf(addresses[1..], userId)
    else AddressesOf(addresses[1..], userId)
  }

  /** `UserService.getDefaultAddress`: the (first) default address of the user. */
  function GetDefaultAddress(s: Store, userId: Id): (r: Option<Address>)
    ensures r.Some? ==> r.value in s.addresses && IsDefaultOf(r.value, userId)
    ensures r.None? <==> forall a :: a in s.addresses ==> !IsDefaultOf(a, userId)
  {
    match FindDefault(s.addresses, userId)
    case None => None
    case Some(k) => Some(s.addresses[k])
  }

  /**
   Unsets the user's current default address, if any: the `ifPresent` branch
   shared by `addAddress` and `updateAddress`.
   */
  function ClearDefault(addresses: seq<Address>, userId: Id): (r: seq<Address>)
    ensures |r| == |addresses|
    ensures forall j :: 0 <= j < |r| ==> r[j] == addresses[j] || r[j] == addresses[j].(isDefault := false)
    ensures forall j :: 0 <= j < |r| && !IsDefaultOf(addresses[j], userId) ==> r[j] == addresses[j]
  {
    match FindDefault(addresses, userId)
    case None => addresses
    case Some(k) => addresses[k := addresses[k].(isDefault := false)]
  }

  /** `UserService.addAddress`: the new row gets a fresh id and the user as owner. */
  function AddAddress(s: Store, userId: Id, address: Address): (r: Result<(Store, Address)>)
    ensures r.Err? <==> userId !in s.users
    ensures r.Err? ==> r.error == ResourceNotFound(UserRow(userId))
    ensures r.Ok? ==> (
      var (s', a) := r.value;
      && a == address.(id := s.nextId, user := userId)
      && |s'.addresses| == |s.addresses| + 1 && s'.addresses[|s.addresses|] == a
      && (forall j :: 0 <= j < |s.addresses| ==>
            || s'.addresses[j] == s.addresses[j]
            || (address.isDefault && IsDefaultOf(s.addresses[j], userId)
                && s'.addresses[j] == s.addresses[j].(isDefault := false)))
      && s'.nextId == s.nextId + 1
      && s' == s.(addresses := s'.addresses, nextId := s'.nextId))
  {
    if userId !in s.users then Err(ResourceNotFound(UserRow(userId)))
    else
      var a := address.(id := s.nextId, user := userId);
      var before := if address.isDefault then ClearDefault(s.addresses, userId) else s.addresses;
      Ok((s.(addresses := before + [a], nextId := s.nextId + 1), a))
  }

  /**
   `UserService.updateAddress`: copies the descriptive fields; a request to make
   a non-default address the default moves the flag to it, while a request to
   drop the flag is ignored.
   */
  function UpdateAddress(s: Store, addressId: Id, details: Address): (r: Result<(Store, Address)>)
    ensures r.Err? <==> forall a :: a in s.addresses ==> a.id != addressId
    ensures r.Err? ==> r.error == ResourceNotFound(AddressRow(addressId))
    ensures r.Ok? ==> (
      var (s', a) := r.value;
      var i := FindAddress(s.addresses, addressId).value;
      && |s'.addresses| == |s.addresses|
      && s'.addresses[i] == a
      && a.id == addressId && a.user == s.addresses[i].user
      && a.addressType == details.addressType && a.street == details.street && a.city == details.city
      && a.state == details.state && a.postalCode == details.postalCode && a.country == details.country
      && a.isDefault == (details.isDefault || s.addresses[i].isDefault)
      && (forall j :: 0 <= j < |s.addresses| && j != i ==>
            || s'.addresses[j] == s.addresses[j]
            || (details.isDefault && IsDefaultOf(s.addresses[j], a.user)
                && s'.addresses[j] == s.addresses[j].(isDefault := false)))
      && s' == s.(addresses := s'.addresses))
  {
    match FindAddress(s.addresses, addressId)
    case None => Err(ResourceNotFound(AddressRow(addressId)))
    case Some(i) =>
      var a := s.addresses[i];
      var edited := a.(addressType := details.addressType, street := details.street, city := details.city,
                       state := details.state, postalCode := details.postalCode, country := details.country);
      if details.isDefault && !a.isDefault then
        var promoted := edited.(isDefault := true);
        var cleared := ClearDefault(s.addresses, a.user);
        assert cleared[i := promoted][i] == promoted;
        Ok((s.(addresses := cleared[i := promoted]), promoted))
      else
        assert s.addresses[i := edited][i] == edited;
        Ok((s.(addresses := s.addresses[i := edited]), edited))
  }

  /** `UserService.deleteAddress`: removes the row with that id; an unknown id removes nothing. */
  function DeleteAddress(s: Store, addressId: Id): (r: Store)
    ensures forall a :: a in r.addresses <==> a in s.addresses && a.id != addressId
    ensures r == s.(addresses := r.addresses)
  {
    s.(addresses := WithoutAddress(s.addresses, addressId))
  }

  function WithoutAddress(addresses: seq<Address>, id: Id): (r: seq<Address>)
    ensures forall a :: a in r <==> a in addresses && a.id != id
  {
    if |addresses| == 0 then []
    else if addresses[0].id == id then WithoutAddress(addresses[1..], id)
    else [addresses[0]] + WithoutAddress(addresses[1..], id)
  }

  // ---------------------------------------------------------------------
  // Default-address invariant
  // ---------------------------------------------------------------------

  /** Turning flags off never breaks the invariant. */
  lemma FewerDefaults(a: seq<Address>, b: seq<Address>)
    requires AtMostOneDefault(a)
    requires |a| == |b|
    requires forall j :: 0 <= j < |b| ==> b[j].user == a[j].user && (b[j].isDefault ==> a[j].isDefault)
    ensures AtMostOneDefault(b)
  {
  }

  /** After clearing, the user has no default address left. */
  lemma ClearDefaultRemovesDefault(addresses: seq<Address>, userId: Id)
    requires AtMostOneDefault(addresses)
    ensures forall a :: a in ClearDefault(addresses, userId) ==> !IsDefaultOf(a, userId)
    ensures AtMostOneDefault(ClearDefault(addresses, userId))
  {
    var r := ClearDefault(addresses, userId);
    match FindDefault(addresses, userId)
    case None =>
    case Some(k) =>
      forall j | 0 <= j < |r| && j > k
        ensures !IsDefaultOf(addresses[j], userId)
      {
        assert addresses[k].isDefault;
      }
    FewerDefaults(addresses, r);
  }

  /** An address appended after every default of other users keeps the invariant iff its owner has none. */
  lemma AppendKeepsOneDefault(addresses: seq<Address>, a: Address)
    requires AtMostOneDefault(addresses)
    requires a.isDefault ==> forall b :: b in addresses ==> !IsDefaultOf(b, a.user)
    ensures AtMostOneDefault(addresses + [a])
  {
    var r := addresses + [a];
    forall i, j | 0 <= i < j < |r| && r[i].isDefault && r[j].isDefault
      ensures r[i].user != r[j].user
    {
      if j == |addresses| {
        assert r[i] in addresses;
      }
    }
  }

  lemma FindDefaultAppendNew(addresses: seq<Address>, a: Address)
    requires a.isDefault
    requires forall b :: b in addresses ==> !IsDefaultOf(b, a.user)
    ensures FindDefault(addresses + [a], a.user) == Some(|addresses|)
  {
    var r := addresses + [a];
    forall j | 0 <= j < |addresses|
      ensures !IsDefaultOf(r[j], a.user)
    {
      assert r[j] in addresses;
    }
    assert IsDefaultOf(r[|addresses|], a.user);
  }

  lemma FindDefaultAppendOther(addresses: seq<Address>, a: Address, userId: Id)
    requires !IsDefaultOf(a, userId)
    ensures FindDefault(addresses + [a], userId) == FindDefault(addresses, userId)
  {
    var r := addresses + [a];
    var f := FindDefault(r, userId);
    var g := FindDefault(addresses, userId);
    assert forall j :: 0 <= j < |addresses| ==> r[j] == addresses[j];
    if f.Some? {
      assert f.value < |addresses|;
      assert g.Some? && g.value == f.value;
    }
  }

  /** `addAddress` keeps at most one default address per user. */
  lemma AddAddressKeepsOneDefault(s: Store, userId: Id, address: Address)
    requires AtMostOneDefault(s.addresses)
    requires AddAddress(s, userId, address).Ok?
    ensures AtMostOneDefault(AddAddress(s, userId, address).value.0.addresses)
  {
    var a := address.(id := s.nextId, user := userId);
    if address.isDefault {
      ClearDefaultRemovesDefault(s.addresses, userId);
      AppendKeepsOneDefault(ClearDefault(s.addresses, userId), a);
    } else {
      AppendKeepsOneDefault(s.addresses, a);
    }
  }

  /**
   After adding a default address it is the user's default; adding a
   non-default one leaves every user's default as it was.
   */
  lemma AddAddressDefault(s: Store, userId: Id, address: Address)
    requires AtMostOneDefault(s.addresses)
    requires AddAddress(s, userId, address).Ok?
    ensures var (s', a) := AddAddress(s, userId, address).value;
      && (address.isDefault ==> GetDefaultAddress(s', userId) == Some(a))
      && (!address.isDefault ==> forall u :: GetDefaultAddress(s', u) == GetDefaultAddress(s, u))
  {
    var a := address.(id := s.nextId, user := userId);
    if address.isDefault {
      ClearDefaultRemovesDefault(s.addresses, userId);
      FindDefaultAppendNew(ClearDefault(s.addresses, userId), a);
    } else {
      forall u
        ensures FindDefault(s.addresses + [a], u) == FindDefault(s.addresses, u)
      {
        FindDefaultAppendOther(s.addresses, a, u);
      }
    }
  }

  /** `updateAddress` keeps at most one default address per user. */
  lemma UpdateAddressKeepsOneDefault(s: Store, addressId: Id, details: Address)
    requires AtMostOneDefault(s.addresses)
    requires UpdateAddress(s, addressId, details).Ok?
    ensures AtMostOneDefault(UpdateAddress(s, addressId, details).value.0.addresses)
  {
    var i := FindAddress(s.addresses, addressId).value;
    var a := s.addresses[i];
    if details.isDefault && !a.isDefault {
      ClearDefaultRemovesDefault(s.addresses, a.user);
      var cleared := ClearDefault(s.addresses, a.user);
      var promoted := a.(addressType := details.addressType, street := details.street, city := details.city,
                         state := details.state, postalCode := details.postalCode, country := details.country,
                         isDefault := true);
      PromoteKeepsOneDefault(cleared, i, promoted);
    } else {
      FewerDefaults(s.addresses, s.addresses[i := UpdateAddress(s, addressId, details).value.1]);
    }
  }

  lemma PromoteKeepsOneDefault(cleared: seq<Address>, i: nat, promoted: Address)
    requires AtMostOneDefault(cleared)
    requires i < |cleared|
    requires forall b :: b in cleared ==> !IsDefaultOf(b, promoted.user)
    ensures AtMostOneDefault(cleared[i := promoted])
  {
    var r := cleared[i := promoted];
    forall x, y | 0 <= x < y < |r| && r[x].isDefault && r[y].isDefault
      ensures r[x].user != r[y].user
    {
      if x == i {
        assert r[y] == cleared[y];
        assert cleared[y] in cleared;
      } else if y == i {
        assert r[x] == cleared[x];
        assert cleared[x] in cleared;
      }
    }
  }

  /** Making an address the default makes it the value `getDefaultAddress` returns for its owner. */
  lemma UpdateAddressPromotes(s: Store, addressId: Id, details: Address)
    requires AtMostOneDefault(s.addresses)
    requires UpdateAddress(s, addressId, details).Ok?
    requires details.isDefault
    ensures var (s', a) := UpdateAddress(s, addressId, details).value;
      GetDefaultAddress(s', a.user) == Some(a)
  {
    var (s', a) := UpdateAddress(s, addressId, details).value;
    UpdateAddressKeepsOneDefault(s, addressId, details);
    var i := FindAddress(s.addresses, addressId).value;
    OnlyDefault(s'.addresses, i, a.user);
  }

  /**
   A request without the flag cannot demote: a default address stays its
   owner's default, and every user's default is the same row as before.
   */
  lemma UpdateAddressIgnoresDemotion(s: Store, addressId: Id, details: Address)
    requires AtMostOneDefault(s.addresses)
    requires UpdateAddress(s, addressId, details).Ok?
    requires !details.isDefault
    ensures var (s', a) := UpdateAddress(s, addressId, details).value;
      && a.isDefault == s.addresses[FindAddress(s.addresses, addressId).value].isDefault
      && (forall u :: FindDefault(s'.addresses, u) == FindDefault(s.addresses, u))
  {
    var (s', a) := UpdateAddress(s, addressId, details).value;
    var i := FindAddress(s.addresses, addressId).value;
    forall u
      ensures FindDefault(s'.addresses, u) == FindDefault(s.addresses, u)
    {
      SameDefaultsFindSame(s.addresses, s'.addresses, u);
    }
  }

  /** Two tables with the same owner and flag in every row answer `findByUserIdAndIsDefaultTrue` alike. */
  lemma {:induction false} SameDefaultsFindSame(a: seq<Address>, b: seq<Address>, userId: Id)
    requires |a| == |b|
    requires forall j :: 0 <= j < |a| ==> a[j].user == b[j].user && a[j].isDefault == b[j].isDefault
    ensures FindDefault(a, userId) == FindDefault(b, userId)
  {
    if |a| > 0 {
      SameDefaultsFindSame(a[1..], b[1..], userId);
    }
  }

  /** Under the invariant, a default address is the one `getDefaultAddress` finds. */
  lemma OnlyDefault(addresses: seq<Address>, i: nat, userId: Id)
    requires AtMostOneDefault(addresses)
    requires i < |addresses| && IsDefaultOf(addresses[i], userId)
    ensures FindDefault(addresses, userId) == Some(i)
  {
    forall j | 0 <= j < i
      ensures !IsDefaultOf(addresses[j], userId)
    {
      assert addresses[i].isDefault;
    }
  }

  /** Deleting the default address leaves its owner without one. */
  lemma DeleteDefaultAddress(s: Store, userId: Id)
    requires AtMostOneDefault(s.addresses)
    requires GetDefaultAddress(s, userId).Some?
    ensures GetDefaultAddress(DeleteAddress(s, GetDefaultAddress(s, userId).value.id), userId) == None
  {
    var k := FindDefault(s.addresses, userId).value;
    var d := s.addresses[k];
    var r := DeleteAddress(s, d.id);
    forall j | 0 <= j < |s.addresses| && j != k
      ensures !IsDefaultOf(s.addresses[j], userId)
    {
      assert d.isDefault;
    }
    forall a | a in r.addresses
      ensures !IsDefaultOf(a, userId)
    {
      var j :| 0 <= j < |s.addresses| && s.addresses[j] == a;
      assert j != k;
    }
  }

  /** `deleteAddress` keeps at most one default address per user. */
  lemma {:induction false} DeleteAddressKeepsOneDefault(addresses: seq<Address>, id: Id)
    requires AtMostOneDefault(addresses)
    ensures AtMostOneDefault(WithoutAddress(addresses, id))
  {
    if |addresses| > 0 {
      var rest := addresses[1..];
      FewerDefaultsSuffix(addresses);
      DeleteAddressKeepsOneDefault(rest, id);
      if addresses[0].id != id {
        var tail := WithoutAddress(rest, id);
        var x := addresses[0];
        forall b | b in tail
          ensures x.isDefault ==> !IsDefaultOf(b, x.user)
        {
          var j :| 0 <= j < |rest| && rest[j] == b;
          assert addresses[j + 1] == b;
        }
        ConsKeepsOneDefault(x, tail);
      }
    }
  }

  lemma FewerDefaultsSuffix(addresses: seq<Address>)
    requires AtMostOneDefault(addresses) && |addresses| > 0
    ensures AtMostOneDefault(addresses[1..])
  {
    var rest := addresses[1..];
    forall i, j | 0 <= i < j < |rest| && rest[i].isDefault && rest[j].isDefault
      ensures rest[i].user != rest[j].user
    {
      assert rest[i] == addresses[i + 1] && rest[j] == addresses[j + 1];
    }
  }

  lemma ConsKeepsOneDefault(x: Address, rest: seq<Address>)
    requires AtMostOneDefault(rest)
    requires x.isDefault ==> forall b :: b in rest ==> !IsDefaultOf(b, x.user)
    ensures AtMostOneDefault([x] + rest)
  {
    var r := [x] + rest;
    forall i, j | 0 <= i < j < |r| && r[i].isDefault && r[j].isDefault
      ensures r[i].user != r[j].user
    {
      assert r[j] == rest[j - 1];
      if i == 0 {
        assert rest[j - 1] in rest;
      } else {
        assert r[i] == rest[i - 1];
      }
    }
  }

  /** `updateUserProfile` cannot create a duplicate email, because it never writes the email. */
  lemma UpdateProfileKeepsUniqueEmails(s: Store, userId: Id, details: User)
    requires UniqueEmails(s.users)
    requires UpdateUserProfile(s, userId, details).Ok?
    ensures UniqueEmails(UpdateUserProfile(s, userId, details).value.0.users)
  {
  }
}

=== FILE: wishlist_service.dfy ===
/**
 `WishlistService`: a table of (user, product) rows kept free of duplicates
 because `AddToWishlist` refuses a pair that is already present.
 */
module WishlistService {
  import opened Domain

  /** `WishlistRepository.findByUserId`: the user's rows, in table order. */
  function WishesOf(wishlist: seq<Wish>, userId: Id): (r: seq<Wish>)
    ensures forall w :: w in r <==> w in wishlist && w.user == userId
    ensures |r| <= |wishlist|
  {
    if |wishlist| == 0 then []
    else if wishlist[0].user == userId then [wishlist[0]] + WishesOf(wishlist[1..], userId)
    else WishesOf(wishlist[1..], userId)
  }

  /** `WishlistRepository.deleteByUserIdAndProductId`: the table without the rows of one pair. */
  function WithoutWish(wishlist: seq<Wish>, w: Wish): (r: seq<Wish>)
    ensures forall v :: v in r <==> v in wishlist && v != w
  {
    if |wishlist| == 0 then []
    else if wishlist[0] == w then WithoutWish(wishlist[1..], w)
    else [wishlist[0]] + WithoutWish(wishlist[1..], w)
  }

  /** `deleteAll(findByUserId(userId))`: the table without the user's rows. */
  function WithoutUser(wishlist: seq<Wish>, userId: Id): (r: seq<Wish>)
    ensures forall v :: v in r <==> v in wishlist && v.user != userId
  {
    if |wishlist| == 0 then []
    else if wishlist[0].user == userId then WithoutUser(wishlist[1..], userId)
    else [wishlist[0]] + WithoutUser(wishlist[1..], userId)
  }

  /** The products a user has on the wishlist. */
  function WishedProducts(wishlist: seq<Wish>, userId: Id): set<Id> {
    set w | w in wishlist && w.user == userId :: w.product
  }

  /** Without duplicate rows, the user has one row per wished product. */
  lemma {:induction false} RowsPerProduct(wishlist: seq<Wish>, userId: Id)
    requires UniqueWishes(wishlist)
    ensures |WishesOf(wishlist, userId)| == |WishedProducts(wishlist, userId)|
  {
    if |wishlist| > 0 {
      var w := wishlist[0];
      var rest := wishlist[1..];
      UniqueWishesTail(wishlist);
      RowsPerProduct(rest, userId);
      if w.user == userId {
        assert w.product !in WishedProducts(rest, userId);
        assert WishedProducts(wishlist, userId) == WishedProducts(rest, userId) + {w.product};
      } else {
        assert WishedProducts(wishlist, userId) == WishedProducts(rest, userId);
      }
    } else {
      assert WishedProducts(wishlist, userId) == {};
    }
  }

  /** `WishlistService.getWishlistCount`: the number of the user's rows. */
  function GetWishlistCount(s: Store, userId: Id): (r: nat)
    ensures r <= |s.wishlist|
    ensures r == 0 <==> forall w :: w in s.wishlist ==> w.user != userId
    ensures UniqueWishes(s.wishlist) ==> r == |WishedProducts(s.wishlist, userId)|
  {
    var mine := WishesOf(s.wishlist, userId);
    assert |mine| > 0 ==> mine[0] in mine;
    assert UniqueWishes(s.wishlist) ==> |mine| == |WishedProducts(s.wishlist, userId)| by {
      if UniqueWishes(s.wishlist) { RowsPerProduct(s.wishlist, userId); }
    }
    |mine|
  }

  /** `WishlistService.isInWishlist`: whether the pair is one of the user's rows. */
  function IsInWishlist(s: Store, userId: Id, productId: Id): (r: bool)
    ensures r <==> exists w :: w in WishesOf(s.wishlist, userId) && w.product == productId
    ensures r ==> GetWishlistCount(s, userId) > 0
  {
    Wish(userId, productId) in s.wishlist
  }

  /** `WishlistService.addToWishlist`: the duplicate check comes before the user and product lookups. */
  function AddToWishlist(s: Store, userId: Id, productId: Id): (r: Result<(Store, Wish)>)
    ensures IsInWishlist(s, userId, productId) ==> r == Err(BadRequest("Product already in wishlist"))
    ensures !IsInWishlist(s, userId, productId) && userId !in s.users ==> r == Err(ResourceNotFound(UserRow(userId)))
    ensures !IsInWishlist(s, userId, productId) && userId in s.users && productId !in s.products ==>
      r == Err(ResourceNotFound(ProductRow(productId)))
    ensures r.Ok? <==> !IsInWishlist(s, userId, productId) && userId in s.users && productId in s.products
    ensures r.Ok? ==> IsInWishlist(r.value.0, userId, productId) && r.value.1 == Wish(userId, productId)
    ensures r.Ok? ==> forall w :: w in r.value.0.wishlist <==> w in s.wishlist || w == Wish(userId, productId)
    ensures r.Ok? ==> r.value.0 == s.(wishlist := r.value.0.wishlist)
  {
    if Wish(userId, productId) in s.wishlist then Err(BadRequest("Product already in wishlist"))
    else if userId !in s.users then Err(ResourceNotFound(UserRow(userId)))
    else if productId !in s.products then Err(ResourceNotFound(ProductRow(productId)))
    else Ok((s.(wishlist := s.wishlist + [Wish(userId, productId)]), Wish(userId, productId)))
  }

  /** `WishlistService.removeFromWishlist`. */
  function RemoveFromWishlist(s: Store, userId: Id, productId: Id): (r: Result<Store>)
    ensures r.Err? <==> !IsInWishlist(s, userId, productId)
    ensures r.Err? ==> r.error == ResourceNotFound(WishlistEntry(userId, productId))
    ensures r.Ok? ==> !IsInWishlist(r.value, userId, productId)
    ensures r.Ok? ==> forall w :: w != Wish(userId, productId) ==> (w in r.value.wishlist <==> w in s.wishlist)
    ensures r.Ok? ==> r.value == s.(wishlist := r.value.wishlist)
  {
    if Wish(userId, productId) !in s.wishlist then Err(ResourceNotFound(WishlistEntry(userId, productId)))
    else Ok(s.(wishlist := WithoutWish(s.wishlist, Wish(userId, productId))))
  }

  /** `WishlistService.clearWishlist`. */
  function ClearWishlist(s: Store, userId: Id): (r: Store)
    ensures GetWishlistCount(r, userId) == 0
    ensures forall w: Wish :: w.user != userId ==> (w in r.wishlist <==> w in s.wishlist)
    ensures r == s.(wishlist := r.wishlist)
  {
    var r := s.(wishlist := WithoutUser(s.wishlist, userId));
    NoRowsNoWishes(r.wishlist, userId);
    r
  }

  lemma {:induction false} NoRowsNoWishes(wishlist: seq<Wish>, userId: Id)
    requires forall w :: w in wishlist ==> w.user != userId
    ensures WishesOf(wishlist, userId) == []
  {
    if |wishlist| > 0 {
      NoRowsNoWishes(wishlist[1..], userId);
    }
  }

  // ---------------------------------------------------------------------
  // Properties
  // ---------------------------------------------------------------------

  lemma {:induction false} WishesOfAppend(wishlist: seq<Wish>, w: Wish, userId: Id)
    ensures WishesOf(wishlist + [w], userId) == WishesOf(wishlist, userId) + (if w.user == userId then [w] else [])
  {
    if |wishlist| == 0 {
      assert wishlist + [w] == [w];
    } else {
      assert (wishlist + [w])[1..] == wishlist[1..] + [w];
      WishesOfAppend(wishlist[1..], w, userId);
    }
  }

  lemma UniqueWishesTail(wishlist: seq<Wish>)
    requires UniqueWishes(wishlist) && |wishlist| > 0
    ensures UniqueWishes(wishlist[1..]) && wishlist[0] !in wishlist[1..]
  {
    var rest := wishlist[1..];
    forall i, j | 0 <= i < j < |rest|
      ensures rest[i] != rest[j]
    {
      assert rest[i] == wishlist[i + 1] && rest[j] == wishlist[j + 1];
    }
    forall k | 0 <= k < |rest|
      ensures rest[k] != wishlist[0]
    {
      assert rest[k] == wishlist[k + 1];
    }
  }

  /** Deleting a pair the table holds once removes exactly one of its user's rows. */
  lemma {:induction false} WithoutWishCount(wishlist: seq<Wish>, w: Wish)
    requires UniqueWishes(wishlist)
    requires w in wishlist
    ensures |WishesOf(WithoutWish(wishlist, w), w.user)| == |WishesOf(wishlist, w.user)| - 1
  {
    UniqueWishesTail(wishlist);
    if wishlist[0] == w {
      WithoutAbsentWish(wishlist[1..], w);
    } else {
      WithoutWishCount(wishlist[1..], w);
    }
  }

  lemma {:induction false} WithoutAbsentWish(wishlist: seq<Wish>, w: Wish)
    requires w !in wishlist
    ensures WithoutWish(wishlist, w) == wishlist
  {
    if |wishlist| > 0 {
      WithoutAbsentWish(wishlist[1..], w);
    }
  }

  /** A successful add keeps the rows free of duplicates and raises the user's count by one. */
  lemma AddToWishlistEffects(s: Store, userId: Id, productId: Id)
    requires UniqueWishes(s.wishlist)
    requires AddToWishlist(s, userId, productId).Ok?
    ensures var s' := AddToWishlist(s, userId, productId).value.0;
      && UniqueWishes(s'.wishlist)
      && GetWishlistCount(s', userId) == GetWishlistCount(s, userId) + 1
      && forall other :: other != userId ==> GetWishlistCount(s', other) == GetWishlistCount(s, other)
  {
    var w := Wish(userId, productId);
    var list := s.wishlist + [w];
    forall i, j | 0 <= i < j < |list|
      ensures list[i] != list[j]
    {
      if j == |list| - 1 {
        assert list[i] in s.wishlist;
      }
    }
    WishesOfAppend(s.wishlist, w, userId);
    forall other | other != userId
      ensures GetWishlistCount(s.(wishlist := list), other) == GetWishlistCount(s, other)
    {
      WishesOfAppend(s.wishlist, w, other);
    }
  }

  /** A successful remove keeps the rows free of duplicates and lowers the user's count by one. */
  lemma RemoveFromWishlistEffects(s: Store, userId: Id, productId: Id)
    requires UniqueWishes(s.wishlist)
    requires RemoveFromWishlist(s, userId, productId).Ok?
    ensures var s' := RemoveFromWishlist(s, userId, productId).value;
      && UniqueWishes(s'.wishlist)
      && GetWishlistCount(s', userId) == GetWishlistCount(s, userId) - 1
  {
    WithoutWishCount(s.wishlist, Wish(userId, productId));
    WithoutWishKeepsUnique(s.wishlist, Wish(userId, productId));
  }

  lemma {:induction false} WithoutWishKeepsUnique(wishlist: seq<Wish>, w: Wish)
    requires UniqueWishes(wishlist)
    ensures UniqueWishes(WithoutWish(wishlist, w))
  {
    if |wishlist| > 0 {
      UniqueWishesTail(wishlist);
      WithoutWishKeepsUnique(wishlist[1..], w);
      if wishlist[0] != w {
        ConsUnique(wishlist[0], WithoutWish(wishlist[1..], w));
      }
    }
  }

  lemma {:induction false} WithoutUserKeepsUnique(wishlist: seq<Wish>, userId: Id)
    requires UniqueWishes(wishlist)
    ensures UniqueWishes(WithoutUser(wishlist, userId))
  {
    if |wishlist| > 0 {
      UniqueWishesTail(wishlist);
      WithoutUserKeepsUnique(wishlist[1..], userId);
      if wishlist[0].user != userId {
        ConsUnique(wishlist[0], WithoutUser(wishlist[1..], userId));
      }
    }
  }

  lemma ConsUnique(w: Wish, rest: seq<Wish>)
    requires UniqueWishes(rest) && w !in rest
    ensures UniqueWishes([w] + rest)
  {
    var r := [w] + rest;
    forall i, j | 0 <= i < j < |r|
      ensures r[i] != r[j]
    {
      if i == 0 {
        assert r[j] == rest[j - 1];
      } else {
        assert r[i] == rest[i - 1] && r[j] == rest[j - 1];
      }
    }
  }

  /** Clearing one user's wishlist leaves every other user's count as it was. */
  lemma {:induction false} ClearWishlistKeepsOthers(wishlist: seq<Wish>, userId: Id, other: Id)
    requires other != userId
    ensures WishesOf(WithoutUser(wishlist, userId), other) == WishesOf(wishlist, other)
  {
    if |wishlist| > 0 {
      ClearWishlistKeepsOthers(wishlist[1..], userId, other);
    }
  }
}
